=== FILE: README.md ===
# Scene states of an amethyst 0.10 demo game, in Dafny

The game has three scenes. The loading screen starts the asset loaders and then switches to
the main menu. The main menu pushes gameplay when "play" is clicked. Gameplay pops back to
the menu once the "pause" action has been pressed. Every scene builds its own entities when
it is entered and deletes them when it leaves. Three resources tell the per-frame systems
what to do: `CurrentState`, `HideCursor.hide` and the input event channel. Those systems
turn the menu's model and steer the gameplay camera.

The model is written over an abstract world (`Ecs`):
- Entities are ids handed out fresh by a counter.
- The components the systems join on are a transform map, a camera set and a set of
  `Rotates` markers.
- `current` and `hideCursor` stand for the two resources.
- The input channel is an append-only sequence. Readers are cursors into it.

Each scene hook is a pure function from (scene record, world) to a new record and world,
or to a `Trans`:
- `LoadingHooks`, `MainMenuHooks` and `GameplayHooks` hold the hooks.
- Every `delete_entity(..).unwrap()` and `Option::unwrap` on the way is a `requires`.
- The asset loaders, `ProgressCounter::complete()`, `UiFinder::find`, window focus, input
  axes and frame time are oracles, passed in as parameters.

`GameplaySystems` and `MainMenuSystems` model the systems of `src/ecs/`.

`Engine` puts the hooks together as amethyst's state machine runs them. The engine's code is
not part of this model, so its behaviour is an explicit assumption:
- Push runs `on_pause` on the top scene, then `on_start` on the new one.
- Pop runs `on_stop` on the top scene, then `on_resume` on the one below.
- Switch runs `on_stop`, then `on_start`.
- Quit runs `on_stop` on every scene from the top down and ends the run.
- A hook a scene does not implement does nothing and asks for `Trans::None`, except
  `handle_event`: the default quits when the window asks to close. The loading screen
  and gameplay keep that default.
- A frame goes through these steps in order:
  1. state events to the top scene's `handle_event`, with each transition applied at once;
  2. the top scene's `update`;
  3. the systems in the order `src/main.rs` registers them;
  4. `shadow_update` on every scene;
  5. the transition `update` asked for.

On top of that, the engine proves an invariant (`Engine.Inv`) that `Init` establishes and
every transition and `Frame` keeps:
- The stack is the loading screen alone, the menu alone, or gameplay on top of the
  suspended menu.
- `CurrentState` names the top scene.
- The cursor is hidden exactly while gameplay is on top.
- The live entities are exactly the ones the top scene recorded. The suspended menu owns
  none of them.

From the invariant follow these results:
- Ledger and gate results: while the run goes on, no entity of a stopped or paused scene is left behind; the
  camera systems act only in gameplay; the menu rotation turns only the menu's model.
- Run scenarios: failed loading quits with no entity left, and completed loading shows
  the menu.
- Click scenarios: a play click pushes gameplay, and a quit click ends the run.
- The pause scenario: a pause press pops back to the menu on the following frame.

Four behaviours of the code are easy to get wrong, and the model keeps them as written:
- The menu's `enter` never writes `HideCursor`. Only gameplay's `on_stop` clears it,
  which shows the cursor again.
- Gameplay's `shadow_update` toggles `paused` on every "pause" press, with or without
  window focus (`Engine.PausePressReturnsToMenu` has no focus requirement).
- Loading hands over to the menu with `Trans::Switch`, not a push. The loading screen
  stops, so the menu is the bottom of the stack.
- The menu has no `on_stop`. Quitting from the menu therefore leaves its four entities
  alive (`Engine.QuitClickLeavesMenuEntities`), while quitting from the loading screen
  leaves none.

## Model

| member | source | states |
|---|---|---|
| Ecs.Initial | src/main.rs:79-81 | the application starts with no entity, `CurrentState::Loading`, the cursor shown and no input event |
| Ecs.Spawn | src/graphics.rs:26 | building an entity yields an id that was not alive, adds exactly that id, and attaches exactly the given components to it |
| Ecs.Delete | src/states/gameplay_state.rs:98-100 | deleting demands a live entity and removes exactly it and its components, leaving the resources and the id counter alone |
| Ecs.RegisterReader | src/states/gameplay_state.rs:70-74 | a reader registered now sees none of the events published before it |
| Ecs.Read | src/states/gameplay_state.rs:114 | a read yields exactly the events after the reader's cursor, in order, and moves the cursor to the end |
| Ecs.ReadTwiceSeesEachEventOnce | src/ecs/gameplay.rs:50 | two successive reads together see every event from the first cursor on exactly once and in order |
| Graphics.InitializeLight | src/graphics.rs:29-45 | one fresh entity with the light's transform at (2, 2, -2) turned half a turn, and no camera |
| Graphics.InitializeCamera | src/graphics.rs:20-27 | one fresh entity carrying the given transform and a camera |
| LoadingHooks.New | src/states/loading_state.rs:28-37 | a new loading screen has no loaded data, no UI handle, no loading-screen entity and no progress bar, so it owns no entity |
| LoadingHooks.OnStart | src/states/loading_state.rs:41-60 | sets `CurrentState` to Loading, records the three loader results, and builds exactly one entity, the loading screen, which is fresh; no component changes |
| LoadingHooks.OnStop | src/states/loading_state.rs:62-64 | demands a recorded, live loading screen, and deletes exactly it and nothing else |
| LoadingHooks.Update | src/states/loading_state.rs:66-113 | Complete switches to a new menu built from the three loaded values, Failed quits, and Loading stays; nothing else is possible; the bar is rewritten exactly when it is known and all three widgets exist, and it is looked up only while unknown |
| LoadingHooks.ProgressBarNeverCleared | src/states/loading_state.rs:77-108 | once the bar is known, any number of further loading frames keep the same bar |
| LoadingHooks.ProgressBarFoundStaysFound | src/states/loading_state.rs:102-107 | if the finder sees the bar in any loading frame, the bar is known after the run |
| MainMenuHooks.New | src/states/mainmenu_state.rs:59-76 | a new menu keeps the handed-over data and has no entity or button recorded |
| MainMenuHooks.Enter | src/states/mainmenu_state.rs:79-106 | sets `CurrentState` to MainMenu and builds four fresh entities in order: UI, rotating model, light, camera; the model gets the loaded transform, the light and camera their fixed ones, and existing transforms stay; the model is the only new rotating entity and the camera the only new camera; the cursor flag is untouched |
| MainMenuHooks.EnterRecordsFourFresh | src/states/mainmenu_state.rs:79-106 | the four recorded entities are set, distinct, were not alive before, and are all that entering adds |
| MainMenuHooks.OnStart | src/states/mainmenu_state.rs:109-115 | starting the menu, and resuming it (both hooks run `enter`), adds exactly its four fresh entities, with one camera and one rotating model among them; the menu keeps its loaded data, UI handle, gameplay data and buttons |
| MainMenuHooks.OnPause | src/states/mainmenu_state.rs:117-129 | deletes exactly the recorded entities: the UI only if recorded, the other three demanded; forgets the buttons without deleting them; changes no resource |
| MainMenuHooks.Matches | src/states/mainmenu_state.rs:179-184 | a target matches a slot exactly when the slot holds that very entity; an empty slot matches nothing |
| MainMenuHooks.HandleEvent | src/states/mainmenu_state.rs:131-150 | only a click release transitions; it pushes a new gameplay scene with the menu's gameplay data exactly when it hits play; it quits exactly when it hits quit and neither play nor settings |
| MainMenuHooks.NoTransitionBeforeDiscovery | src/states/mainmenu_state.rs:179-184 | before play and quit are discovered, no event transitions |
| MainMenuHooks.Update | src/states/mainmenu_state.rs:152-176 | never transitions; each button slot is filled from the finder only while empty, and kept once set |
| MainMenuHooks.PlayButtonNeverForgotten | src/states/mainmenu_state.rs:152-176 | once the play button is discovered, any number of further menu frames keep it, and nothing but the button slots ever changes |
| MainMenuHooks.PlayButtonFoundStaysFound | src/states/mainmenu_state.rs:152-176 | if the finder sees the play button in any menu frame, it is known after the run |
| GameplayHooks.New | src/states/gameplay_state.rs:53-62 | new gameplay is unpaused, has no reader and no entity recorded |
| GameplayHooks.OnStart | src/states/gameplay_state.rs:66-93 | sets `CurrentState` to Gameplay, hides the cursor, registers a reader at the end of the channel, and builds three fresh entities: model, light, camera, carrying the loaded, the light's and the camera's transforms, with existing transforms unchanged |
| GameplayHooks.OnStartRecordsThreeFresh | src/states/gameplay_state.rs:76-92 | the three recorded entities are set, distinct, were not alive before, and are all that starting adds |
| GameplayHooks.OnStop | src/states/gameplay_state.rs:95-101 | shows the cursor, demands the three recorded entities alive, and deletes exactly them; `CurrentState` is left as it is |
| GameplayHooks.Update | src/states/gameplay_state.rs:103-109 | pops exactly when paused, otherwise stays |
| GameplayHooks.Toggle | src/states/gameplay_state.rs:114-122 | after a batch, the scene is paused exactly when it was paused and saw an even number of "pause" presses, or was unpaused and saw an odd number |
| GameplayHooks.ShadowUpdate | src/states/gameplay_state.rs:111-123 | consumes every event after the reader's cursor and flips `paused` once per "pause" press among them; nothing else changes |
| GameplayHooks.ToggleConcat | src/states/gameplay_state.rs:114-122 | toggling over two batches in turn equals toggling over their concatenation |
| GameplayHooks.EvenPressesKeepPaused | src/states/gameplay_state.rs:111-123 | an even number of "pause" presses leaves `paused` as it was |
| GameplayHooks.OtherEventsIgnored | src/states/gameplay_state.rs:115-120 | an event that is not a "pause" press does not affect the toggle |
| GameplaySystems.NewCameraRotation | src/ecs/gameplay.rs:22-28 | the system keeps its two sensitivities and has no reader until set up |
| GameplaySystems.RotationGate | src/ecs/gameplay.rs:51 | a camera-rotation event takes effect exactly when camera movement's gate is open: focused window, hidden cursor, Gameplay shown |
| GameplaySystems.Setup | src/ecs/gameplay.rs:41-47 | set-up registers the reader at the end of the channel and changes nothing else |
| GameplaySystems.RotateAll | src/ecs/gameplay.rs:50-58 | with the gate open, every camera's pitch and yaw grow by the batch's summed mouse motion times the sensitivities, in radians; translation and roll stay; non-cameras and a closed gate change nothing |
| GameplaySystems.RotationRun | src/ecs/gameplay.rs:49-61 | reads every new event whether or not the gate is open, moves the cursor to the end, and turns the cameras only when focused, cursor hidden and in Gameplay |
| GameplaySystems.GatedOutEventsAreDropped | src/ecs/gameplay.rs:49-61 | events read while the gate is closed are dropped: the next run applies only what was published after them |
| GameplaySystems.Direction | src/ecs/gameplay.rs:93 | a direction exists exactly when the axes' vector is longer than the 1e-6 threshold, and it is horizontal |
| GameplaySystems.MovementGate | src/ecs/gameplay.rs:88-92 | outside Gameplay camera movement never acts; in Gameplay it acts exactly when the window is focused and the cursor hidden |
| GameplaySystems.MovementRun | src/ecs/gameplay.rs:84-101 | outside Gameplay, without focus, with the cursor shown or without a long enough direction nothing moves; otherwise only cameras move, and only their translation changes |
| MainMenuSystems.Run | src/ecs/mainmenu.rs:29-35 | outside the main menu nothing changes; in it, exactly the marked entities turn their yaw by speed times frame time, with the other axes and the translation unchanged |
| Engine.StopScene | src/states/loading_state.rs:62-64 | stopping the top scene deletes exactly its recorded entities and nothing else; the menu has no `on_stop`, so stopping it leaves the world as it was |
| Engine.StopAll | src/states/loading_state.rs:112 | stopping every scene from the top down deletes exactly the top scene's entities, since every scene below it is a menu, which deletes nothing; a stack of menus leaves the world as it was |
| Engine.PushScene | src/states/mainmenu_state.rs:136 | pushing gameplay over the menu keeps the invariant: gameplay owns every live entity and none of the suspended menu's; the suspended menu is the old one with its buttons forgotten; the started gameplay has the pushed scene's data and pause flag and a reader at the end of the channel |
| Engine.PopScene | src/states/gameplay_state.rs:103-109 | popping gameplay keeps the invariant: the resumed menu is the one below, changed only in its four entity slots, owns every live entity and none of gameplay's |
| Engine.SwitchScene | src/states/loading_state.rs:71-75 | switching from the loading screen keeps the invariant, with the requested menu alone on the stack, changed only in its four entity slots; the loading screen's entity is gone |
| Engine.QuitAll | src/states/mainmenu_state.rs:140 | quitting ends the run with an empty stack; from the loading screen no entity is left; from gameplay no entity is left and the cursor is shown; from the menu the world is untouched |
| Engine.Transition | src/states/mainmenu_state.rs:131-150 | every transition a scene may ask for keeps the invariant; None changes nothing and Quit, alone, ends the run; Push, Pop, Switch and Quit each leave what the corresponding member promises, including which scene data moves and which entities are gone |
| Engine.HandleEventScene | src/states/mainmenu_state.rs:131-150 | the menu's own `handle_event` decides for the menu; the loading screen and gameplay, which keep the default, quit exactly on a window close request and otherwise stay |
| Engine.HandleEvents | src/states/mainmenu_state.rs:131-150 | handing the frame's state events to the top scene one by one keeps the invariant and never touches the input channel; once the run has ended no event is handled |
| Engine.UpdateTop | src/states/loading_state.rs:66-113 | the top scene's `update` keeps the invariant and leaves the world alone; the loading screen and the menu are replaced by the record their own `update` returns (the bar and the buttons they found), gameplay stays as it was; the menu never transitions, gameplay pops exactly when paused, and the loading screen quits exactly on failure, switches exactly on completion and otherwise stays |
| Engine.RunSystems | src/main.rs:59-74 | the systems publish the frame's input and keep the invariant; on the loading screen no transform changes; under the menu the transforms are exactly what the menu rotation makes of them; in gameplay with focus every camera's pitch and yaw gain the summed mouse motion of the events since its reader's cursor |
| Engine.ShadowStep | src/states/gameplay_state.rs:111-123 | `shadow_update` on every scene keeps the invariant, applies gameplay's `shadow_update` to a gameplay scene on top and leaves the suspended menu and every other scene unchanged |
| Engine.Frame | src/main.rs:79-87 | a frame keeps the invariant, and a frame whose state events end the run is exactly that handling of its state events |
| Engine.Init | src/main.rs:79-81 | the application starts in a good configuration with the loading screen alone, `CurrentState::Loading` and the cursor shown |
| Engine.Run | src/main.rs:87 | any number of frames keep the invariant |
| Engine.TopSceneOwnsTheWorld | src/ecs/mod.rs:5-11 | in a good running configuration `CurrentState` names the top scene, the cursor is hidden exactly in gameplay, and the live entities are exactly the top scene's: one, four or three |
| Engine.SystemsFollowTheTopScene | src/ecs/gameplay.rs:51 | the camera gates are open exactly when gameplay is on top and the window has focus; the menu rotation sees exactly the menu's model |
| Engine.FailedLoadingQuitsClean | src/states/loading_state.rs:112 | a first frame whose loading fails ends the run with no entity left |
| Engine.CompletedLoadingShowsMenu | src/states/loading_state.rs:68-76 | a first frame whose loading completes leaves the menu alone on the stack, owning four entities, with the cursor shown |
| Engine.PlayClickStartsGameplay | src/states/mainmenu_state.rs:135-136 | a click release on the discovered play button pushes gameplay, hides the cursor and removes all of the menu's entities |
| Engine.QuitClickLeavesMenuEntities | src/states/mainmenu_state.rs:139-140 | a click release on quit ends the run with the menu's four entities still alive |
| Engine.CloseRequestQuitsOutsideMenu | src/states/mainmenu_state.rs:148 | a window close request is ignored by the menu, and from the loading screen or gameplay ends the run with no entity alive and the cursor shown |
| Engine.HandleEventsConcat | src/states/mainmenu_state.rs:131-150 | handling two batches of state events one after the other is handling their concatenation, so every event reaches the scene on top in turn |
| Engine.CloseRequestFrameQuits | src/states/mainmenu_state.rs:148 | a whole frame whose state event is a close request ends the run from the loading screen or gameplay with no entity alive |
| Engine.ClickFramePushes | src/states/mainmenu_state.rs:134-136 | a whole frame whose state event is a click on the discovered play button leaves gameplay on top of the menu with the cursor hidden |
| Engine.MenuFrameFindsPlay | src/states/mainmenu_state.rs:152-160 | a menu frame in which the UI finder sees the play button records that entity in the menu on top |
| Engine.PausePressReturnsToMenu | src/states/gameplay_state.rs:103-123 | a pause press, with or without focus, pauses gameplay in the frame it arrives in, and the next frame pops to the menu, which shows the cursor and owns none of gameplay's entities |

## Left out

- The progress fraction and the bar's geometry and text (`src/ui/loading_bar.rs`): floating-point layout. The model records only whether the bar's widgets were rewritten.
- The asset loaders, `ProgressCounter`, `UiFinder`, window focus, input axes and frame time: engine code. Their results are parameters (`Assets`, `Completion`, `UiNames`, `FrameInput`).
- `output::init_output` (audio) in the loading screen's `on_start`: it creates no entity the scenes record.
- Quaternion and projection arithmetic: an orientation is three angles. Each `pitch_local`, `yaw_global` or `yaw_local` adds to its angle, so the order in which rotations compose is not modelled.
- GameplaySystems.MovementRun: the direction is not normalised, and it is not turned into the camera's own frame. The contract states only which entities move, when, and that only the translation changes.
- The entities a UI prefab instantiates as children (the buttons and the bar's widgets): they are not part of the entity set. Deleting the UI entity is modelled as deleting that one entity.
- `CameraAspect`, `MouseFocusUpdateSystem`, `CursorHideSystem`, the renderer and the audio processor: engine systems that do not touch the scenes' state.
- Window events other than a close request: no scene acts on them. Of a window event, only whether it asks to close the window is modelled.
- `src/main.rs` command line, logger and bundle wiring: only the initial resources and the system parameters are used.
- `src/states/loading.rs`, `src/states/gameplay.rs`, `src/systems/camera.rs` and `src/systems/ui.rs`: an older revision that does not fit the rest of the code, for example a one-argument `initialize_camera`. It is not part of this model.
- `src/ui/mod.rs`: prefab widget conversion, not part of this model.
- The engine's state machine itself: its behaviour is the assumption stated above, not a model of its code.
- Integer and float widths: ids are unbounded, and angles, speeds and times are exact reals.

=== FILE: ecs.dfy ===
/**
 * The part of the engine's world the scene states touch: the entity store with
 * the components the per-frame systems join on, the `CurrentState` and
 * `HideCursor` resources, and the input event channel.
 */
module Ecs {
  import opened Wrappers

  /** An entity handle. The engine's handles are generational and a deleted
      handle never compares equal to a later one, so ids are handed out fresh. */
  type Entity = nat

  /** The resource telling the per-frame systems which scene is shown. */
  datatype CurrentState = Loading | MainMenu | Gameplay

  datatype Vec3 = Vec3(x: real, y: real, z: real)

  /** A transform: translation and orientation as pitch/yaw/roll angles in radians. */
  datatype Transform = Transform(translation: Vec3, pitch: real, yaw: real, roll: real)

  /** The `f32` value of pi. */
  const Pi: real := 3.14159274101257324

  /** `f32::to_radians`. */
  function ToRadians(degrees: real): real
  {
    degrees * Pi / 180.0
  }

  /** Events on the input channel. */
  datatype InputEvent =
    | ActionPressed(action: string)
    | ActionReleased(action: string)
    | MouseMoved(deltaX: real, deltaY: real)
    | KeyPressed(key: nat)
    | KeyReleased(key: nat)
    | MouseButtonPressed(button: nat)
    | MouseButtonReleased(button: nat)

  /** The entity an `Option<Entity>` slot records, as a set. */
  function Held(slot: Option<Entity>): set<Entity>
  {
    match slot
    case None => {}
    case Some(e) => {e}
  }

  lemma CardinalityOfThree(a: Entity, b: Entity, c: Entity)
    requires a != b && a != c && b != c
    ensures |{a, b, c}| == 3
  {
  }

  lemma CardinalityOfFour(a: Entity, b: Entity, c: Entity, d: Entity)
    requires a != b && a != c && a != d && b != c && b != d && c != d
    ensures |{a, b, c, d}| == 4
  {
    CardinalityOfThree(a, b, c);
    assert {a, b, c, d} == {a, b, c} + {d};
  }

  /** What an entity is built with. */
  datatype Components = Components(transform: Option<Transform>, camera: bool, rotates: bool)

  const Bare := Components(Option.None, false, false)

  /** The world: live entities, the next fresh id, the `Transform` and `Camera` storages,
      and the entities carrying the `Rotates` marker, which holds no data and lives in a
      null storage, so only its set of entities is kept. */
  datatype WorldData = WorldData(
    live: set<Entity>,
    next: Entity,
    transforms: map<Entity, Transform>,
    cameras: set<Entity>,
    rotates: set<Entity>,
    current: CurrentState,
    hideCursor: bool,
    events: seq<InputEvent>)
  {
    /** Every live id was handed out before `next`; components sit on live entities only. */
    predicate Valid() {
      && (forall e | e in live :: e < next)
      && transforms.Keys <= live
      && cameras <= live
      && rotates <= live
    }
  }

  type World = w: WorldData | w.Valid()
    witness WorldData({}, 0, map[], {}, {}, Loading, false, [])

  /** The resources the application is built with: `HideCursor { hide: false }` and
      `CurrentState::Loading`, no entity and no input event yet. */
  function Initial(): (w: World)
    ensures w.live == {} && w.current == Loading && !w.hideCursor && w.events == []
  {
    WorldData({}, 0, map[], {}, {}, Loading, false, [])
  }

  /** `world.create_entity().with(..).build()`: the entity built is `w.next`, which is
      fresh, and it carries the components `c`. */
  function Spawn(w: World, c: Components): (r: World)
    ensures w.next !in w.live && r.live == w.live + {w.next} && r.next == w.next + 1
    ensures r.transforms == (if c.transform.Some? then w.transforms[w.next := c.transform.value] else w.transforms)
    ensures r.transforms.Keys == (if c.transform.Some? then w.transforms.Keys + {w.next} else w.transforms.Keys)
    ensures r.cameras == (if c.camera then w.cameras + {w.next} else w.cameras)
    ensures r.rotates == (if c.rotates then w.rotates + {w.next} else w.rotates)
    ensures r.current == w.current && r.hideCursor == w.hideCursor && r.events == w.events
  {
    var e := w.next;
    w.(live := w.live + {e},
       next := w.next + 1,
       transforms := if c.transform.Some? then w.transforms[e := c.transform.value] else w.transforms,
       cameras := if c.camera then w.cameras + {e} else w.cameras,
       rotates := if c.rotates then w.rotates + {e} else w.rotates)
  }

  /** `world.delete_entity(e).unwrap()`: the unwrap demands that `e` is alive. */
  function Delete(w: World, e: Entity): (r: World)
    requires e in w.live
    ensures r.live == w.live - {e} && r.next == w.next
    ensures r.transforms == w.transforms - {e} && r.transforms.Keys == w.transforms.Keys - {e}
    ensures r.cameras == w.cameras - {e} && r.rotates == w.rotates - {e}
    ensures r.current == w.current && r.hideCursor == w.hideCursor && r.events == w.events
  {
    w.(live := w.live - {e},
       transforms := w.transforms - {e},
       cameras := w.cameras - {e},
       rotates := w.rotates - {e})
  }

  /** The input system appending this frame's events to the channel. */
  function Publish(w: World, batch: seq<InputEvent>): (r: World)
    ensures r.events == w.events + batch
    ensures r.live == w.live && r.transforms == w.transforms && r.current == w.current && r.hideCursor == w.hideCursor
    ensures r.next == w.next && r.cameras == w.cameras && r.rotates == w.rotates
  {
    w.(events := w.events + batch)
  }

  /** `EventChannel::register_reader`: a new reader starts at the end of the channel. */
  function RegisterReader(w: World): (cursor: nat)
    ensures cursor <= |w.events|
    ensures Read(w.events, cursor).0 == []
  {
    |w.events|
  }

  /** `EventChannel::read`: the events after the reader's cursor, and the moved cursor. */
  function Read(events: seq<InputEvent>, cursor: nat): (r: (seq<InputEvent>, nat))
    requires cursor <= |events|
    ensures r.1 == |events|
    ensures |r.0| == |events| - cursor
    ensures forall i | 0 <= i < |r.0| :: r.0[i] == events[cursor + i]
  {
    (events[cursor..], |events|)
  }

  /** A reader that reads, then reads again after more events were published,
      sees every event from its cursor on exactly once and in order. */
  lemma ReadTwiceSeesEachEventOnce(events: seq<InputEvent>, cursor: nat, more: seq<InputEvent>)
    requires cursor <= |events|
    ensures Read(events, cursor).0 + Read(events + more, Read(events, cursor).1).0
            == (events + more)[cursor..]
    ensures Read(events + more, Read(events, cursor).1).1 == |events + more|
  {
    var first := Read(events, cursor);
    var second := Read(events + more, first.1);
    assert second.0 == more;
  }
}

=== FILE: ecs_gameplay.dfy ===
/**
 * The gameplay camera systems of src/ecs/gameplay.rs: when they act at all, and on
 * which entities. Orientation is kept as pitch/yaw/roll angles, each turn adding to
 * its angle; the quaternion and projection arithmetic is not modelled.
 */
module GameplaySystems {
  import opened Wrappers
  import opened Ecs

  /** `CameraRotation`: its input reader (a cursor into the channel) and sensitivities. */
  datatype CameraRotation = CameraRotation(eventReader: Option<nat>, sensitivityX: real, sensitivityY: real)

  /** `CameraRotation::new`: no reader until `setup`. */
  function NewCameraRotation(sensitivityX: real, sensitivityY: real): (r: CameraRotation)
    ensures r.eventReader == Option.None
    ensures r.sensitivityX == sensitivityX && r.sensitivityY == sensitivityY
  {
    CameraRotation(Option.None, sensitivityX, sensitivityY)
  }

  /** `setup`: registers the reader, which then sees only events published afterwards. */
  function Setup(sys: CameraRotation, w: World): (r: CameraRotation)
    ensures r.eventReader == Some(|w.events|)
    ensures r == sys.(eventReader := r.eventReader)
  {
    sys.(eventReader := Some(RegisterReader(w)))
  }

  /** Whether a camera-rotation event has any effect: the window is focused, the cursor
      hidden and gameplay shown. It opens exactly when camera movement's gate does. */
  function RotationGate(cur: CurrentState, focused: bool, hideCursor: bool): (open: bool)
    ensures open <==> MovementGate(cur, focused, hideCursor)
  {
    focused && hideCursor && cur == Gameplay
  }

  /** `pitch_local` by -dy times the vertical sensitivity, then `yaw_global` by -dx times
      the horizontal one, each taken as degrees and turned into radians. */
  function Turn(sys: CameraRotation, t: Transform, deltaX: real, deltaY: real): Transform
  {
    t.(pitch := t.pitch + ToRadians((-deltaY) * sys.sensitivityY), yaw := t.yaw + ToRadians((-deltaX) * sys.sensitivityX))
  }

  /** The body of the loop for one event: only mouse motion turns, and only cameras. */
  function RotateOnce(sys: CameraRotation, gate: bool, e: InputEvent, transforms: map<Entity, Transform>,
                      cameras: set<Entity>): map<Entity, Transform>
  {
    if gate && e.MouseMoved? then
      map k | k in transforms :: if k in cameras then Turn(sys, transforms[k], e.deltaX, e.deltaY) else transforms[k]
    else
      transforms
  }

  /** The pitch one event adds to every camera: -dy times the sensitivity, in radians,
      for mouse motion, and nothing for any other event. */
  function PitchStep(sys: CameraRotation, e: InputEvent): real
  {
    if e.MouseMoved? then ToRadians((-e.deltaY) * sys.sensitivityY) else 0.0
  }

  /** The yaw one event adds to every camera. */
  function YawStep(sys: CameraRotation, e: InputEvent): real
  {
    if e.MouseMoved? then ToRadians((-e.deltaX) * sys.sensitivityX) else 0.0
  }

  /** The pitch a batch adds to every camera. */
  function PitchTotal(sys: CameraRotation, batch: seq<InputEvent>): real
  {
    if |batch| == 0 then 0.0 else PitchStep(sys, batch[0]) + PitchTotal(sys, batch[1..])
  }

  /** The yaw a batch adds to every camera. */
  function YawTotal(sys: CameraRotation, batch: seq<InputEvent>): real
  {
    if |batch| == 0 then 0.0 else YawStep(sys, batch[0]) + YawTotal(sys, batch[1..])
  }

  /** One pass of the loop body turns every camera by the event's steps and nothing else. */
  lemma RotateOnceTurnsCameras(sys: CameraRotation, gate: bool, e: InputEvent,
                               transforms: map<Entity, Transform>, cameras: set<Entity>)
    ensures var t1 := RotateOnce(sys, gate, e, transforms, cameras);
            && t1.Keys == transforms.Keys
            && (forall k | k in transforms && k !in cameras :: t1[k] == transforms[k])
            && (forall k | k in transforms && k in cameras ::
                  t1[k] == transforms[k].(pitch := transforms[k].pitch + (if gate then PitchStep(sys, e) else 0.0),
                                          yaw := transforms[k].yaw + (if gate then YawStep(sys, e) else 0.0)))
  {
    if gate && e.MouseMoved? {
      var t1 := RotateOnce(sys, gate, e, transforms, cameras);
      forall k | k in transforms && k in cameras
        ensures t1[k] == transforms[k].(pitch := transforms[k].pitch + PitchStep(sys, e),
                                        yaw := transforms[k].yaw + YawStep(sys, e))
      {
        assert t1[k] == Turn(sys, transforms[k], e.deltaX, e.deltaY);
      }
    }
  }

  /** The loop of `CameraRotation::run` over a batch, in order. */
  function RotateAll(sys: CameraRotation, gate: bool, batch: seq<InputEvent>, transforms: map<Entity, Transform>,
                     cameras: set<Entity>): (r: map<Entity, Transform>)
    ensures r.Keys == transforms.Keys
    ensures !gate ==> r == transforms
    ensures forall k | k in transforms && k !in cameras :: r[k] == transforms[k]
    ensures forall k | k in transforms && k in cameras ::
              r[k] == transforms[k].(pitch := transforms[k].pitch + (if gate then PitchTotal(sys, batch) else 0.0),
                                     yaw := transforms[k].yaw + (if gate then YawTotal(sys, batch) else 0.0))
    decreases |batch|
  {
    if |batch| == 0 then transforms
    else
      var t1 := RotateOnce(sys, gate, batch[0], transforms, cameras);
      RotateOnceTurnsCameras(sys, gate, batch[0], transforms, cameras);
      RotateAll(sys, gate, batch[1..], t1, cameras)
  }

  /** `CameraRotation::run`: reads every new event (the unwrap demands a registered reader)
      whether or not the gate is open, and turns the cameras by the batch's mouse motion
      only when it is. */
  function RotationRun(sys: CameraRotation, cur: CurrentState, events: seq<InputEvent>,
                       transforms: map<Entity, Transform>, cameras: set<Entity>,
                       focused: bool, hideCursor: bool): (r: (CameraRotation, map<Entity, Transform>))
    requires sys.eventReader.Some? && sys.eventReader.value <= |events|
    ensures r.0 == sys.(eventReader := Some(|events|))
    ensures r.1.Keys == transforms.Keys
    ensures !RotationGate(cur, focused, hideCursor) ==> r.1 == transforms
    ensures forall k | k in transforms && k !in cameras :: r.1[k] == transforms[k]
    ensures forall k | k in transforms && k in cameras ::
              && r.1[k].translation == transforms[k].translation
              && r.1[k].roll == transforms[k].roll
    ensures RotationGate(cur, focused, hideCursor) ==>
              forall k | k in transforms && k in cameras ::
                && r.1[k].pitch == transforms[k].pitch + PitchTotal(sys, events[sys.eventReader.value..])
                && r.1[k].yaw == transforms[k].yaw + YawTotal(sys, events[sys.eventReader.value..])
  {
    var (batch, cursor) := Read(events, sys.eventReader.value);
    (sys.(eventReader := Some(cursor)),
     RotateAll(sys, RotationGate(cur, focused, hideCursor), batch, transforms, cameras))
  }

  /** Events read while the gate is closed are dropped, not deferred: the next run
      applies only what was published after them. */
  lemma GatedOutEventsAreDropped(sys: CameraRotation, cur: CurrentState, events: seq<InputEvent>,
                                 more: seq<InputEvent>, transforms: map<Entity, Transform>,
                                 cameras: set<Entity>, focused: bool, hideCursor: bool,
                                 cur': CurrentState, focused': bool, hideCursor': bool)
    requires sys.eventReader.Some? && sys.eventReader.value <= |events|
    requires !RotationGate(cur, focused, hideCursor)
    ensures var first := RotationRun(sys, cur, events, transforms, cameras, focused, hideCursor);
            RotationRun(first.0, cur', events + more, first.1, cameras, focused', hideCursor').1
            == RotateAll(first.0, RotationGate(cur', focused', hideCursor'), more, transforms, cameras)
  {
    var first := RotationRun(sys, cur, events, transforms, cameras, focused, hideCursor);
    assert (events + more)[|events|..] == more;
  }

  /** `CameraMovement`: its speed. */
  datatype CameraMovement = CameraMovement(speed: real)

  /** `Unit::try_new`'s threshold: a shorter direction is no direction. */
  const MinNorm: real := 0.000001

  /** The walking direction, if the axes give one. */
  function Direction(walk: real, strafe: real): (r: Option<Vec3>)
    ensures r.Some? <==> walk * walk + strafe * strafe > MinNorm * MinNorm
    ensures r.Some? ==> r.value.y == 0.0
  {
    if walk * walk + strafe * strafe > MinNorm * MinNorm then Some(Vec3(-strafe, 0.0, -walk)) else Option.None
  }

  /** `move_along_local`, simplified: shifts the translation by `dir` scaled to `dist`, in world
      axes; the camera's local frame and the normalisation of `dir` are left out. */
  function MoveAlong(t: Transform, dir: Vec3, dist: real): Transform
  {
    t.(translation := Vec3(t.translation.x + dir.x * dist, t.translation.y + dir.y * dist,
                           t.translation.z + dir.z * dist))
  }

  /** Whether camera movement has any effect: outside Gameplay never, and in Gameplay
      exactly when the window is focused and the cursor hidden. */
  function MovementGate(cur: CurrentState, focused: bool, hideCursor: bool): (open: bool)
    ensures cur != Gameplay ==> !open
    ensures cur == Gameplay ==> (open <==> focused && hideCursor)
  {
    cur == Gameplay && (focused && hideCursor)
  }

  /** `CameraMovement::run`: in Gameplay it reads the walk and strafe axes (the unwraps
      demand both are bound), and only with focus and a hidden cursor, and a direction
      long enough, moves the cameras. */
  function MovementRun(sys: CameraMovement, cur: CurrentState, deltaSeconds: real,
                       walk: Option<real>, strafe: Option<real>,
                       transforms: map<Entity, Transform>, cameras: set<Entity>,
                       focused: bool, hideCursor: bool): (r: map<Entity, Transform>)
    requires cur == Gameplay ==> walk.Some? && strafe.Some?
    ensures !MovementGate(cur, focused, hideCursor) ==> r == transforms
    ensures cur == Gameplay && Direction(walk.value, strafe.value).None? ==> r == transforms
    ensures r.Keys == transforms.Keys
    ensures forall k | k in transforms && k !in cameras :: r[k] == transforms[k]
    ensures forall k | k in transforms && k in cameras ::
              && r[k].pitch == transforms[k].pitch
              && r[k].yaw == transforms[k].yaw
              && r[k].roll == transforms[k].roll
  {
    if cur == Gameplay then
      var w := walk.value;
      var s := strafe.value;
      var dir := Direction(w, s);
      if focused && hideCursor && dir.Some? then
        map k | k in transforms ::
          if k in cameras then MoveAlong(transforms[k], dir.value, deltaSeconds * sys.speed) else transforms[k]
      else
        transforms
    else
      transforms
  }
}

=== FILE: ecs_mainmenu.dfy ===
/** The main-menu system of src/ecs/mainmenu.rs. */
module MainMenuSystems {
  import opened Ecs

  /** `MainMenuRotation`: its turning speed. */
  datatype MainMenuRotation = MainMenuRotation(speed: real)

  /** `yaw_local`: turns about the entity's own vertical axis. */
  function YawLocal(t: Transform, angle: real): Transform
  {
    t.(yaw := t.yaw + angle)
  }

  /** `MainMenuRotation::run`: in the main menu, every entity with both a transform and the
      marker turns by speed times the frame time about its vertical axis; nothing else
      changes, and outside the main menu nothing changes at all. */
  function Run(sys: MainMenuRotation, cur: CurrentState, deltaSeconds: real, rotates: set<Entity>,
               transforms: map<Entity, Transform>): (r: map<Entity, Transform>)
    ensures cur != MainMenu ==> r == transforms
    ensures r.Keys == transforms.Keys
    ensures forall k | k in transforms && k !in rotates :: r[k] == transforms[k]
    ensures forall k | k in transforms && k in rotates ::
              && r[k].translation == transforms[k].translation
              && r[k].pitch == transforms[k].pitch
              && r[k].roll == transforms[k].roll
    ensures cur == MainMenu ==>
              forall k | k in transforms && k in rotates :: r[k].yaw == transforms[k].yaw + sys.speed * deltaSeconds
  {
    if cur == MainMenu then
      map k | k in transforms :: if k in rotates then YawLocal(transforms[k], sys.speed * deltaSeconds) else transforms[k]
    else
      transforms
  }
}

=== FILE: engine.dfy ===
/**
 * The engine's state machine driving the scenes, and the invariants it keeps.
 *
 * The engine's own code is not part of this model. Its behaviour is stated here
 * as explicit assumptions:
 *   - Push runs `on_pause` on the top scene, then `on_start` on the new one;
 *   - Pop runs `on_stop` on the top scene, then `on_resume` on the one below it;
 *   - Switch runs `on_stop` on the top scene, then `on_start` on the new one;
 *   - Quit runs `on_stop` on every scene from the top down and ends the run;
 *   - a hook a scene does not implement does nothing and asks for `Trans::None`,
 *     except `handle_event`, whose default asks for `Trans::Quit` on a window close
 *     request and for `Trans::None` otherwise;
 *   - a frame hands each state event to the top scene's `handle_event` (applying
 *     its transition at once), then calls the top scene's `update`, runs the
 *     systems, calls `shadow_update` on every scene, and applies the transition
 *     `update` asked for.
 */
module Engine {
  import opened Wrappers
  import opened Ecs
  import opened Scenes
  import LoadingHooks
  import MainMenuHooks
  import GameplayHooks
  import GameplaySystems
  import MainMenuSystems

  /** The systems with the parameters src/main.rs registers them with. */
  const MenuRotation := MainMenuSystems.MainMenuRotation(0.7)
  const Movement := GameplaySystems.CameraMovement(3.0)
  const RotationSensitivity: real := 0.1

  /** The scene stack, the world, whether the run goes on, the camera-rotation system's
      state, and what the asset loaders hand back. */
  datatype Config = Config(
    stack: seq<Scene>,
    world: World,
    running: bool,
    rotation: GameplaySystems.CameraRotation,
    assets: Assets)

  function Top(stack: seq<Scene>): Scene
    requires |stack| > 0
  {
    stack[|stack| - 1]
  }

  /** What the engine hands a frame: state events, input events, and the oracles
      (loading completion, UI finder, progress bar widgets, window focus, axes, time). */
  datatype FrameInput = FrameInput(
    stateEvents: seq<StateEvent>,
    inputEvents: seq<InputEvent>,
    completion: Completion,
    ui: UiNames,
    bar: BarView,
    focused: bool,
    walk: Option<real>,
    strafe: Option<real>,
    deltaSeconds: real)

  /** The key bindings define both movement axes. */
  predicate AxesBound(input: FrameInput)
  {
    input.walk.Some? && input.strafe.Some?
  }

  // ---------------------------------------------------------------------------
  // Dispatch of each hook to the scene that implements it.

  predicate CanStopScene(scene: Scene, w: World)
  {
    match scene
    case LoadingScene(l) => l.loadingGui.Some? && l.loadingGui.value in w.live
    case MainMenuScene(_) => true
    case GameplayScene(g) => GameplayHooks.CanStop(g, w)
  }

  /** `on_stop`; the menu does not implement it. */
  function StopScene(scene: Scene, w: World): (r: World)
    requires CanStopScene(scene, w)
    ensures r.events == w.events
    ensures r.live == w.live - (if scene.MainMenuScene? then {} else Owned(scene))
    ensures scene.MainMenuScene? ==> r == w
  {
    if scene.LoadingScene? then LoadingHooks.OnStop(scene.loading, w)
    else if scene.GameplayScene? then GameplayHooks.OnStop(scene.game, w)
    else w
  }

  /** `handle_event`: the menu's own, and for the other scenes the default one, which
      quits when the window asks to close. */
  function HandleEventScene(scene: Scene, event: StateEvent): (t: Trans)
    ensures scene.MainMenuScene? ==> t == MainMenuHooks.HandleEvent(scene.menu, event)
    ensures !scene.MainMenuScene? ==> (t == Quit <==> event == Window(true))
    ensures !scene.MainMenuScene? ==> (t == Quit || t == Trans.None)
  {
    if scene.MainMenuScene? then MainMenuHooks.HandleEvent(scene.menu, event)
    else if event.Window? && event.closeRequested then Quit
    else Trans.None
  }

  // ---------------------------------------------------------------------------
  // The invariants.

  /** The loading screen on top: it owns exactly its UI entity, and no model is shown. */
  predicate LoadingOk(l: LoadingState, w: World)
  {
    && w.current == CurrentState.Loading && !w.hideCursor
    && l.loadingGui.Some? && w.live == {l.loadingGui.value}
    && LoadingHooks.DataLoaded(l)
    && w.cameras == {} && w.rotates == {}
  }

  /** The menu on top: it owns exactly its four entities; its model is the one that rotates. */
  predicate MenuOk(m: MainMenuState, w: World)
  {
    && w.current == MainMenu && !w.hideCursor
    && MainMenuRecorded(m) && w.live == MainMenuOwned(m)
    && w.cameras == {m.camera.value} && w.rotates == {m.suzanne.value}
  }

  /** Gameplay on top: it owns exactly its three entities, the cursor is hidden and its
      input reader is registered. */
  predicate GameOk(g: GameplayState, w: World)
  {
    && w.current == Gameplay && w.hideCursor
    && GameplayRecorded(g) && w.live == GameplayOwned(g)
    && w.cameras == {g.camera.value} && w.rotates == {}
    && g.eventReader.Some? && g.eventReader.value <= |w.events|
  }

  predicate TopOk(scene: Scene, w: World)
  {
    && (scene.LoadingScene? ==> LoadingOk(scene.loading, w))
    && (scene.MainMenuScene? ==> MenuOk(scene.menu, w))
    && (scene.GameplayScene? ==> GameOk(scene.game, w))
  }

  /** The stacks the scenes can build: the loading screen or the menu alone, or
      gameplay on top of the suspended menu. */
  predicate Shape(stack: seq<Scene>)
  {
    || (|stack| == 1 && !stack[0].GameplayScene?)
    || (|stack| == 2 && stack[0].MainMenuScene? && stack[1].GameplayScene?)
  }

  /** The rotation system's reader is registered and within the channel. */
  predicate RotationOk(rotation: GameplaySystems.CameraRotation, w: World)
  {
    && rotation.eventReader.Some? && rotation.eventReader.value <= |w.events|
    && rotation.sensitivityX == RotationSensitivity && rotation.sensitivityY == RotationSensitivity
  }

  predicate Inv(c: Config)
  {
    && RotationOk(c.rotation, c.world)
    && (c.running ==>
          && Shape(c.stack)
          && TopOk(Top(c.stack), c.world)
          && (|c.stack| == 2 ==> Owned(c.stack[0]) !! c.world.live))
    && (!c.running ==> c.stack == [])
  }

  /** The transitions each scene may ask for. */
  predicate Allowed(top: Scene, t: Trans)
  {
    && (t.Pop? ==> top.GameplayScene?)
    && (t.Push? ==> top.MainMenuScene? && t.pushed.GameplayScene?)
    && (t.Switch? ==> top.LoadingScene? && t.target.MainMenuScene?)
  }

  // ---------------------------------------------------------------------------
  // Transitions.

  /** A world with no entity has no component either. */
  lemma NoEntityNoComponent(w: World)
    requires w.live == {}
    ensures w.cameras == {} && w.rotates == {} && w.transforms.Keys == {}
  {
  }

  /** Stopping the loading screen on top empties the world; the id it recorded stays
      below `next`. */
  lemma LoadingStopEmpties(l: LoadingState, w: World)
    requires LoadingOk(l, w)
    ensures var w1 := LoadingHooks.OnStop(l, w);
            w1.live == {} && !w1.hideCursor && (forall e | e in LoadingOwned(l) :: e < w1.next)
  {
  }

  /** The loading screen's entity, recorded below `n`, is none of a menu's recorded at or
      above it. */
  lemma LoadingAndMenuDisjoint(l: LoadingState, m: MainMenuState, n: nat)
    requires forall e | e in LoadingOwned(l) :: e < n
    requires MainMenuRecorded(m) && m.guiEntity.value >= n && m.suzanne.value >= n
    requires m.light.value >= n && m.camera.value >= n
    ensures MainMenuOwned(m) !! LoadingOwned(l)
  {
  }

  /** Stopping gameplay on top empties the world and shows the cursor; the ids it
      recorded stay below `next`. */
  lemma GameStopEmpties(g: GameplayState, w: World)
    requires GameOk(g, w)
    ensures GameplayHooks.CanStop(g, w)
    ensures var w1 := GameplayHooks.OnStop(g, w);
            w1.live == {} && !w1.hideCursor && (forall e | e in GameplayOwned(g) :: e < w1.next)
  {
  }

  /** Pausing the menu on top empties the world; the ids it recorded stay below `next`. */
  lemma MenuPauseEmpties(m: MainMenuState, w: World)
    requires MenuOk(m, w)
    ensures MainMenuHooks.CanPause(m, w)
    ensures var p := MainMenuHooks.OnPause(m, w);
            p.1.live == {} && MainMenuOwned(p.0) == MainMenuOwned(m)
            && (forall e | e in MainMenuOwned(m) :: e < p.1.next)
  {
  }

  /** The menu entering an empty world owns exactly its four entities. */
  lemma MenuEntersEmpty(w0: World, m: MainMenuState, w: World)
    requires w0.live == {} && !w0.hideCursor
    requires w.current == MainMenu && w.hideCursor == w0.hideCursor
    requires MainMenuRecorded(m) && w.live == w0.live + MainMenuOwned(m)
    requires w.cameras == w0.cameras + {m.camera.value} && w.rotates == w0.rotates + {m.suzanne.value}
    ensures MenuOk(m, w)
  {
    NoEntityNoComponent(w0);
  }

  /** Entities recorded below `n` and entities recorded at or above it are different. */
  lemma OldAndNewDisjoint(g: GameplayState, m: MainMenuState, n: nat)
    requires forall e | e in GameplayOwned(g) :: e < n
    requires MainMenuRecorded(m) && m.guiEntity.value >= n && m.suzanne.value >= n
    requires m.light.value >= n && m.camera.value >= n
    ensures MainMenuOwned(m) !! GameplayOwned(g)
  {
  }

  /** Gameplay entering an empty world owns exactly its three entities, all at or above
      the world's `next`. */
  lemma GameEntersEmpty(w0: World, g: GameplayState, w: World)
    requires w0.live == {}
    requires w.current == Gameplay && w.hideCursor && g.eventReader == Some(|w.events|)
    requires g.suzanne == Some(w0.next) && g.light == Some(w0.next + 1) && g.camera == Some(w0.next + 2)
    requires w.live == w0.live + {w0.next, w0.next + 1, w0.next + 2}
    requires w.cameras == w0.cameras + {w0.next + 2} && w.rotates == w0.rotates
    ensures GameOk(g, w) && (forall e | e in w.live :: e >= w0.next)
  {
    NoEntityNoComponent(w0);
  }

  /** A scene other than gameplay alone on the stack, owning the whole world, is a good
      configuration. */
  lemma AloneOk(c: Config, scene: Scene, w: World)
    requires TopOk(scene, w) && !scene.GameplayScene? && RotationOk(c.rotation, w)
    ensures Inv(c.(stack := [scene], world := w, running := true))
  {
  }

  /** Gameplay on top of a suspended menu whose entities are gone is a good configuration. */
  lemma GameOnMenuOk(c: Config, m: MainMenuState, g: GameplayState, w: World)
    requires GameOk(g, w) && MainMenuOwned(m) !! w.live && RotationOk(c.rotation, w)
    ensures Inv(c.(stack := [MainMenuScene(m), GameplayScene(g)], world := w, running := true))
  {
  }

  /** What a push leaves: the menu, its buttons forgotten, suspended under the pushed
      gameplay, which starts with its own data and pause flag and reads the channel from
      its end; none of the menu's entities is alive. */
  predicate PushedOver(c: Config, s: Scene, r: Config)
    requires |c.stack| > 0 && Top(c.stack).MainMenuScene? && s.GameplayScene?
  {
    && |r.stack| == 2 && r.stack[0].MainMenuScene? && r.stack[1].GameplayScene?
    && r.world.live !! MainMenuOwned(Top(c.stack).menu)
    && r.stack[0].menu == Top(c.stack).menu.(play := Option.None, settings := Option.None, quit := Option.None)
    && r.stack[1].game.data == s.game.data && r.stack[1].game.paused == s.game.paused
    && r.stack[1].game.eventReader == Some(|c.world.events|)
  }

  /** What a pop leaves: the menu below alone, changed only in its four entity slots;
      none of gameplay's entities is alive. */
  predicate PoppedTo(c: Config, r: Config)
    requires |c.stack| == 2 && c.stack[0].MainMenuScene? && c.stack[1].GameplayScene?
  {
    && |r.stack| == 1 && r.stack[0].MainMenuScene?
    && r.world.live !! GameplayOwned(c.stack[1].game)
    && var m := r.stack[0].menu;
       m == c.stack[0].menu.(guiEntity := m.guiEntity, suzanne := m.suzanne, light := m.light, camera := m.camera)
  }

  /** What a switch from the loading screen leaves: the requested menu alone, changed only
      in its four entity slots; the loading screen's entity is not alive. */
  predicate SwitchedTo(c: Config, s: Scene, r: Config)
    requires |c.stack| > 0 && Top(c.stack).LoadingScene? && s.MainMenuScene?
  {
    && |r.stack| == 1 && r.stack[0].MainMenuScene?
    && r.world.live !! LoadingOwned(Top(c.stack).loading)
    && var m := r.stack[0].menu;
       m == s.menu.(guiEntity := m.guiEntity, suzanne := m.suzanne, light := m.light, camera := m.camera)
  }

  /** What quitting leaves: no scene and no run; nothing alive after the loading screen
      or gameplay, which also shows the cursor again; the world untouched after the menu. */
  predicate QuitFrom(c: Config, r: Config)
    requires |c.stack| > 0
  {
    && !r.running && r.stack == []
    && (Top(c.stack).LoadingScene? ==> r.world.live == {})
    && (Top(c.stack).MainMenuScene? ==> r.world == c.world)
    && (Top(c.stack).GameplayScene? ==> r.world.live == {} && !r.world.hideCursor)
  }

  /** Push: the menu pauses (deleting its entities), gameplay starts on top. */
  function PushScene(c: Config, s: Scene): (r: Config)
    requires Inv(c) && c.running && Top(c.stack).MainMenuScene? && s.GameplayScene?
    ensures Inv(r) && r.running
    ensures r.world.events == c.world.events && r.rotation == c.rotation
    ensures PushedOver(c, s, r)
  {
    var m := c.stack[0].menu;
    MenuPauseEmpties(m, c.world);
    var paused := MainMenuHooks.OnPause(m, c.world);
    var started := GameplayHooks.OnStart(s.game, paused.1);
    GameEntersEmpty(paused.1, started.0, started.1);
    GameOnMenuOk(c, paused.0, started.0, started.1);
    c.(stack := [MainMenuScene(paused.0), GameplayScene(started.0)], world := started.1, running := true)
  }

  /** Pop: gameplay stops (deleting its entities), the menu below resumes. */
  function PopScene(c: Config): (r: Config)
    requires Inv(c) && c.running && Top(c.stack).GameplayScene?
    ensures Inv(r) && r.running
    ensures r.world.events == c.world.events && r.rotation == c.rotation
    ensures PoppedTo(c, r)
  {
    var g := c.stack[1].game;
    GameStopEmpties(g, c.world);
    var w1 := GameplayHooks.OnStop(g, c.world);
    var resumed := MainMenuHooks.OnStart(c.stack[0].menu, w1);
    MenuEntersEmpty(w1, resumed.0, resumed.1);
    OldAndNewDisjoint(g, resumed.0, w1.next);
    AloneOk(c, MainMenuScene(resumed.0), resumed.1);
    c.(stack := [MainMenuScene(resumed.0)], world := resumed.1, running := true)
  }

  /** Switch: the loading screen stops (deleting its UI), the menu starts. */
  function SwitchScene(c: Config, s: Scene): (r: Config)
    requires Inv(c) && c.running && Top(c.stack).LoadingScene? && s.MainMenuScene?
    ensures Inv(r) && r.running
    ensures r.world.events == c.world.events && r.rotation == c.rotation
    ensures SwitchedTo(c, s, r)
  {
    LoadingStopEmpties(c.stack[0].loading, c.world);
    var w1 := LoadingHooks.OnStop(c.stack[0].loading, c.world);
    var started := MainMenuHooks.OnStart(s.menu, w1);
    MenuEntersEmpty(w1, started.0, started.1);
    LoadingAndMenuDisjoint(c.stack[0].loading, started.0, w1.next);
    AloneOk(c, MainMenuScene(started.0), started.1);
    c.(stack := [MainMenuScene(started.0)], world := started.1, running := true)
  }

  /** `on_stop` on every scene, from the top down. */
  function StopAll(stack: seq<Scene>, w: World): (r: World)
    requires forall i | 0 <= i < |stack| - 1 :: stack[i].MainMenuScene?
    requires |stack| > 0 ==> CanStopScene(Top(stack), w)
    ensures r.events == w.events
    ensures |stack| > 0 ==> r.live == w.live - (if Top(stack).MainMenuScene? then {} else Owned(Top(stack)))
    ensures (forall i | 0 <= i < |stack| :: stack[i].MainMenuScene?) ==> r == w
    decreases |stack|
  {
    if |stack| == 0 then w
    else StopAll(stack[..|stack| - 1], StopScene(Top(stack), w))
  }

  /** Quit: every scene stops and the run ends. */
  function QuitAll(c: Config): (r: Config)
    requires Inv(c) && c.running
    ensures Inv(r)
    ensures r.world.events == c.world.events && r.rotation == c.rotation
    ensures QuitFrom(c, r)
  {
    if Top(c.stack).GameplayScene? then
      GameStopEmpties(c.stack[1].game, c.world);
      var w1 := StopScene(Top(c.stack), c.world);
      c.(stack := [], world := StopAll(c.stack[..1], w1), running := false)
    else
      c.(stack := [], world := StopAll(c.stack, c.world), running := false)
  }

  /** The engine applying a transition. */
  function Transition(c: Config, t: Trans): (r: Config)
    requires Inv(c) && c.running && Allowed(Top(c.stack), t)
    ensures Inv(r)
    ensures r.world.events == c.world.events && r.rotation == c.rotation
    ensures t == Trans.None ==> r == c
    ensures t == Quit <==> !r.running
    ensures t.Push? ==> PushedOver(c, t.pushed, r)
    ensures t.Pop? ==> PoppedTo(c, r)
    ensures t.Switch? ==> SwitchedTo(c, t.target, r)
    ensures t == Quit ==> QuitFrom(c, r)
  {
    if t.Push? then PushScene(c, t.pushed)
    else if t.Pop? then PopScene(c)
    else if t.Switch? then SwitchScene(c, t.target)
    else if t.Quit? then QuitAll(c)
    else c
  }


  // ---------------------------------------------------------------------------
  // A frame.

  /** Each state event goes to the top scene's `handle_event`, and the transition it asks
      for is applied before the next event; nothing is handled once the run has ended. */
  function HandleEvents(c: Config, events: seq<StateEvent>): (r: Config)
    requires Inv(c)
    ensures Inv(r)
    ensures r.world.events == c.world.events && r.rotation == c.rotation
    ensures !c.running ==> r == c
    decreases |events|
  {
    if |events| == 0 || !c.running then c
    else HandleEvents(Transition(c, HandleEventScene(Top(c.stack), events[0])), events[1..])
  }

  /** Handling a batch of state events in two parts, in order, is handling it at once:
      every event reaches the scene on top when its turn comes. */
  lemma {:induction false} HandleEventsConcat(c: Config, a: seq<StateEvent>, b: seq<StateEvent>)
    requires Inv(c)
    ensures HandleEvents(c, a + b) == HandleEvents(HandleEvents(c, a), b)
    decreases |a|
  {
    if |a| == 0 {
      assert a + b == b;
    } else if !c.running {
    } else {
      var c1 := Transition(c, HandleEventScene(Top(c.stack), a[0]));
      assert (a + b)[0] == a[0];
      assert (a + b)[1..] == a[1..] + b;
      HandleEventsConcat(c1, a[1..], b);
    }
  }

  /** The top scene's `update`: the loading screen may record its bar, the menu its
      buttons, and each asks for a transition. */
  function UpdateTop(c: Config, input: FrameInput): (r: (Config, Trans))
    requires Inv(c) && c.running
    ensures Inv(r.0) && r.0.running && Allowed(Top(r.0.stack), r.1)
    ensures r.0.world == c.world && r.0.rotation == c.rotation
    ensures Marker(Top(r.0.stack)) == Marker(Top(c.stack)) && |r.0.stack| == |c.stack|
    ensures Top(c.stack).MainMenuScene? ==> r.1 == Trans.None
    ensures Top(c.stack).GameplayScene? ==>
              (r.1 == Pop <==> Top(c.stack).game.paused) && (r.1 == Pop || r.1 == Trans.None)
    ensures Top(c.stack).LoadingScene? ==>
              && (r.1 == Quit <==> input.completion == Failed)
              && (r.1.Switch? <==> input.completion == Complete)
              && (r.1 == Trans.None <==> input.completion == Completion.Loading)
    ensures Top(c.stack).LoadingScene? ==>
              var o := LoadingHooks.Update(Top(c.stack).loading, input.completion, input.ui, input.bar);
              r.0.stack == [LoadingScene(o.state)] && r.1 == o.trans
    ensures Top(c.stack).MainMenuScene? ==>
              r.0.stack == [MainMenuScene(MainMenuHooks.Update(Top(c.stack).menu, input.ui).0)]
    ensures Top(c.stack).GameplayScene? ==> r.0.stack == c.stack
  {
    var top := Top(c.stack);
    if top.LoadingScene? then
      var o := LoadingHooks.Update(top.loading, input.completion, input.ui, input.bar);
      AloneOk(c, LoadingScene(o.state), c.world);
      (c.(stack := [LoadingScene(o.state)]), o.trans)
    else if top.MainMenuScene? then
      var u := MainMenuHooks.Update(top.menu, input.ui);
      AloneOk(c, MainMenuScene(u.0), c.world);
      (c.(stack := [MainMenuScene(u.0)]), u.1)
    else
      (c, GameplayHooks.Update(top.game))
  }

  /** A world that differs only in transforms and in events appended keeps the invariant. */
  lemma SystemsKeepInv(c: Config, w: World, rotation: GameplaySystems.CameraRotation)
    requires Inv(c) && c.running
    requires w.live == c.world.live && w.cameras == c.world.cameras && w.rotates == c.world.rotates
    requires w.current == c.world.current && w.hideCursor == c.world.hideCursor
    requires |w.events| >= |c.world.events| && RotationOk(rotation, w)
    ensures Inv(c.(world := w, rotation := rotation))
  {
  }

  /** The systems in the order src/main.rs registers them: the input system publishes the
      frame's input events, then the menu rotation, the camera movement and the camera
      rotation run over the transforms. */
  function RunSystems(c: Config, input: FrameInput): (r: Config)
    requires Inv(c) && c.running && AxesBound(input)
    ensures Inv(r) && r.running && r.stack == c.stack
    ensures r.world.events == c.world.events + input.inputEvents
    ensures r.world.live == c.world.live && r.world.current == c.world.current
    ensures r.world.hideCursor == c.world.hideCursor
    ensures r.world.transforms.Keys == c.world.transforms.Keys
    ensures !Top(c.stack).GameplayScene? ==>
              forall k | k in c.world.transforms && k !in c.world.rotates ::
                r.world.transforms[k] == c.world.transforms[k]
    ensures Top(c.stack).LoadingScene? ==> r.world.transforms == c.world.transforms
    ensures Top(c.stack).MainMenuScene? ==>
              r.world.transforms == MainMenuSystems.Run(MenuRotation, MainMenu, input.deltaSeconds,
                                                        c.world.rotates, c.world.transforms)
    ensures Top(c.stack).GameplayScene? && input.focused ==>
              var batch := r.world.events[c.rotation.eventReader.value..];
              forall k | k in c.world.transforms && k in c.world.cameras ::
                && r.world.transforms[k].pitch == c.world.transforms[k].pitch + GameplaySystems.PitchTotal(c.rotation, batch)
                && r.world.transforms[k].yaw == c.world.transforms[k].yaw + GameplaySystems.YawTotal(c.rotation, batch)
  {
    var w1 := Publish(c.world, input.inputEvents);
    var t1 := MainMenuSystems.Run(MenuRotation, w1.current, input.deltaSeconds, w1.rotates, w1.transforms);
    var t2 := GameplaySystems.MovementRun(Movement, w1.current, input.deltaSeconds, input.walk,
                                          input.strafe, t1, w1.cameras, input.focused, w1.hideCursor);
    var rr := GameplaySystems.RotationRun(c.rotation, w1.current, w1.events, t2, w1.cameras,
                                          input.focused, w1.hideCursor);
    var w2: World := w1.(transforms := rr.1);
    SystemsKeepInv(c, w2, rr.0);
    c.(world := w2, rotation := rr.0)
  }

  /** `shadow_update` on every scene keeps the invariant. */
  function ShadowStep(c: Config): (r: Config)
    requires Inv(c) && c.running
    ensures Inv(r) && r.running && r.world == c.world && r.rotation == c.rotation
    ensures |r.stack| == |c.stack| && Marker(Top(r.stack)) == Marker(Top(c.stack))
    ensures Top(c.stack).GameplayScene? ==>
              Top(r.stack) == GameplayScene(GameplayHooks.ShadowUpdate(Top(c.stack).game, c.world))
    ensures Top(c.stack).GameplayScene? ==> r.stack[0] == c.stack[0]
    ensures !Top(c.stack).GameplayScene? ==> r.stack == c.stack
  {
    if Top(c.stack).GameplayScene? then
      var g := GameplayHooks.ShadowUpdate(Top(c.stack).game, c.world);
      GameOnMenuOk(c, c.stack[0].menu, g, c.world);
      c.(stack := [c.stack[0], GameplayScene(g)])
    else c
  }

  /** One frame: state events, the top scene's `update`, the systems, every scene's
      `shadow_update`, then the transition `update` asked for. */
  function Frame(c: Config, input: FrameInput): (r: Config)
    requires Inv(c) && c.running && AxesBound(input)
    ensures Inv(r)
    ensures !HandleEvents(c, input.stateEvents).running ==> r == HandleEvents(c, input.stateEvents)
  {
    var c1 := HandleEvents(c, input.stateEvents);
    if !c1.running then c1
    else
      var u := UpdateTop(c1, input);
      var c3 := RunSystems(u.0, input);
      var c4 := ShadowStep(c3);
      Transition(c4, u.1)
  }

  /** The application starting: the camera-rotation system registers its reader on the
      initial resources, and the loading screen is the first scene. */
  function Init(assets: Assets): (r: Config)
    ensures Inv(r) && r.running && |r.stack| == 1 && r.stack[0].LoadingScene?
    ensures r.world.current == CurrentState.Loading && !r.world.hideCursor
  {
    var w := Initial();
    var rotation := GameplaySystems.Setup(
      GameplaySystems.NewCameraRotation(RotationSensitivity, RotationSensitivity), w);
    var started := LoadingHooks.OnStart(LoadingHooks.New(), w, assets);
    var c := Config([], w, false, rotation, assets);
    AloneOk(c, LoadingScene(started.0), started.1);
    c.(stack := [LoadingScene(started.0)], world := started.1, running := true)
  }

  /** Frames until the inputs run out or the run ends. */
  function Run(c: Config, frames: seq<FrameInput>): (r: Config)
    requires Inv(c)
    requires forall i | 0 <= i < |frames| :: AxesBound(frames[i])
    ensures Inv(r)
    decreases |frames|
  {
    if |frames| == 0 || !c.running then c
    else Run(Frame(c, frames[0]), frames[1..])
  }

  // ---------------------------------------------------------------------------
  // What every good configuration guarantees.

  /** While the run goes on, the `CurrentState` resource names the top scene, the cursor
      is hidden exactly while gameplay is on top, and the live entities are exactly the
      ones the top scene recorded: one for the loading screen, four for the menu, three
      for gameplay. Nothing a stopped or paused scene built is left behind. */
  lemma TopSceneOwnsTheWorld(c: Config)
    requires Inv(c) && c.running
    ensures c.world.current == Marker(Top(c.stack))
    ensures c.world.hideCursor <==> Top(c.stack).GameplayScene?
    ensures c.world.live == Owned(Top(c.stack))
    ensures |c.world.live| == (if Top(c.stack).LoadingScene? then 1
                               else if Top(c.stack).MainMenuScene? then 4 else 3)
  {
    var top := Top(c.stack);
    if top.MainMenuScene? {
      MenuOwnsFour(top.menu, c.world);
    } else if top.GameplayScene? {
      GameOwnsThree(top.game, c.world);
    }
  }

  lemma MenuOwnsFour(m: MainMenuState, w: World)
    requires MenuOk(m, w)
    ensures |w.live| == 4
  {
    CardinalityOfFour(m.guiEntity.value, m.suzanne.value, m.light.value, m.camera.value);
  }

  lemma GameOwnsThree(g: GameplayState, w: World)
    requires GameOk(g, w)
    ensures |w.live| == 3
  {
    CardinalityOfThree(g.suzanne.value, g.light.value, g.camera.value);
  }

  /** The camera systems act exactly while gameplay is on top and the window has focus;
      the menu rotation acts only while the menu is on top, and then only on its model. */
  lemma SystemsFollowTheTopScene(c: Config, focused: bool)
    requires Inv(c) && c.running
    ensures GameplaySystems.RotationGate(c.world.current, focused, c.world.hideCursor)
            <==> focused && Top(c.stack).GameplayScene?
    ensures GameplaySystems.MovementGate(c.world.current, focused, c.world.hideCursor)
            <==> focused && Top(c.stack).GameplayScene?
    ensures c.world.current == MainMenu <==> Top(c.stack).MainMenuScene?
    ensures c.world.rotates == (if Top(c.stack).MainMenuScene? then {Top(c.stack).menu.suzanne.value} else {})
  {
  }

  // ---------------------------------------------------------------------------
  // Runs from the start.

  /** A first frame in which the loaders report failure ends the run, and the loading
      screen's `on_stop` leaves no entity behind. */
  lemma FailedLoadingQuitsClean(assets: Assets, input: FrameInput)
    requires AxesBound(input) && input.stateEvents == [] && input.completion == Failed
    ensures !Frame(Init(assets), input).running
    ensures Frame(Init(assets), input).world.live == {}
  {
    var c := Init(assets);
    assert HandleEvents(c, []) == c;
    var u := UpdateTop(c, input);
    assert u.1 == Quit;
  }

  /** A first frame in which the loaders report completion replaces the loading screen by
      the menu, which then owns its four entities. */
  lemma CompletedLoadingShowsMenu(assets: Assets, input: FrameInput)
    requires AxesBound(input) && input.stateEvents == [] && input.completion == Complete
    ensures var r := Frame(Init(assets), input);
            r.running && r.stack == [Top(r.stack)] && Top(r.stack).MainMenuScene?
            && r.world.current == MainMenu && !r.world.hideCursor && |r.world.live| == 4
  {
    var c := Init(assets);
    assert HandleEvents(c, []) == c;
    var u := UpdateTop(c, input);
    assert u.1.Switch?;
    TopSceneOwnsTheWorld(Frame(c, input));
  }

  /** Clicking the discovered play button while the menu is on top pushes gameplay: the
      cursor is hidden and the menu's entities are gone. */
  lemma PlayClickStartsGameplay(c: Config, e: Entity)
    requires Inv(c) && c.running && Top(c.stack).MainMenuScene? && Top(c.stack).menu.play == Some(e)
    ensures var r := HandleEvents(c, [Ui(UiEvent(ClickStop, e))]);
            r.running && |r.stack| == 2 && Top(r.stack).GameplayScene? && r.world.hideCursor
            && r.world.live !! MainMenuOwned(Top(c.stack).menu)
  {
    var ev := Ui(UiEvent(ClickStop, e));
    var t := HandleEventScene(Top(c.stack), ev);
    assert t.Push?;
    var c1 := Transition(c, t);
    assert HandleEvents(c, [ev]) == HandleEvents(c1, []);
    TopSceneOwnsTheWorld(c1);
  }

  /** Clicking the quit button ends the run; the menu has no `on_stop`, so its four
      entities are still alive when it does. */
  lemma QuitClickLeavesMenuEntities(c: Config, e: Entity)
    requires Inv(c) && c.running && Top(c.stack).MainMenuScene?
    requires Top(c.stack).menu.quit == Some(e)
    requires Top(c.stack).menu.play != Some(e) && Top(c.stack).menu.settings != Some(e)
    ensures var r := HandleEvents(c, [Ui(UiEvent(ClickStop, e))]);
            !r.running && r.world.live == MainMenuOwned(Top(c.stack).menu)
  {
    var ev := Ui(UiEvent(ClickStop, e));
    var t := HandleEventScene(Top(c.stack), ev);
    assert t == Quit;
    var c1 := Transition(c, t);
    assert HandleEvents(c, [ev]) == HandleEvents(c1, []);
  }

  /** A request to close the window quits from the loading screen and from gameplay,
      whose default `handle_event` asks for it, leaving no entity alive and the cursor
      shown; the menu ignores it and nothing changes. */
  lemma CloseRequestQuitsOutsideMenu(c: Config)
    requires Inv(c) && c.running
    ensures var r := HandleEvents(c, [Window(true)]);
            && (Top(c.stack).MainMenuScene? ==> r == c)
            && (!Top(c.stack).MainMenuScene? ==> !r.running && r.world.live == {} && !r.world.hideCursor)
  {
    var ev := Window(true);
    var t := HandleEventScene(Top(c.stack), ev);
    var c1 := Transition(c, t);
    assert HandleEvents(c, [ev]) == HandleEvents(c1, []);
    if !Top(c.stack).MainMenuScene? {
      assert t == Quit;
      assert QuitFrom(c, c1);
    }
  }

  /** A whole frame whose only state event is a close request ends the run from the
      loading screen or gameplay, with no entity left alive. */
  lemma CloseRequestFrameQuits(c: Config, input: FrameInput)
    requires Inv(c) && c.running && AxesBound(input) && !Top(c.stack).MainMenuScene?
    requires input.stateEvents == [Window(true)]
    ensures !Frame(c, input).running && Frame(c, input).world.live == {}
  {
    CloseRequestQuitsOutsideMenu(c);
  }

  /** A whole frame whose only state event is a click on the discovered play button ends
      with gameplay on top of the suspended menu and the cursor hidden. */
  lemma ClickFramePushes(c: Config, input: FrameInput, e: Entity)
    requires Inv(c) && c.running && AxesBound(input) && Top(c.stack).MainMenuScene?
    requires Top(c.stack).menu.play == Some(e) && input.stateEvents == [Ui(UiEvent(ClickStop, e))]
    ensures var r := Frame(c, input);
            r.running && |r.stack| == 2 && Top(r.stack).GameplayScene? && r.world.hideCursor
  {
    PlayClickStartsGameplay(c, e);
    var c1 := HandleEvents(c, input.stateEvents);
    var u := UpdateTop(c1, input);
    assert u.1 == Trans.None;
    var r := Frame(c, input);
    TopSceneOwnsTheWorld(r);
  }

  /** A menu frame without state events in which the UI finder sees the play button
      records it, so a later click on it can start gameplay. */
  lemma MenuFrameFindsPlay(c: Config, input: FrameInput)
    requires Inv(c) && c.running && AxesBound(input) && Top(c.stack).MainMenuScene?
    requires Top(c.stack).menu.play.None? && input.stateEvents == [] && "play" in input.ui
    ensures var r := Frame(c, input);
            r.running && Top(r.stack).MainMenuScene? && Top(r.stack).menu.play == Some(input.ui["play"])
  {
    assert HandleEvents(c, []) == c;
    var u := UpdateTop(c, input);
    assert Top(u.0.stack).menu.play == Some(input.ui["play"]);
    var c4 := ShadowStep(RunSystems(u.0, input));
    assert Transition(c4, u.1) == c4;
  }

  /** A pause press arriving while unpaused gameplay is on top, with or without focus:
      that frame's `update` still sees the scene unpaused, its `shadow_update` pauses it,
      and the next frame's `update` pops back to the menu, which shows the cursor again
      and owns none of gameplay's entities. */
  lemma PausePressReturnsToMenu(c: Config, press: FrameInput, next: FrameInput)
    requires Inv(c) && c.running && Top(c.stack).GameplayScene? && !Top(c.stack).game.paused
    requires Top(c.stack).game.eventReader == Some(|c.world.events|)
    requires AxesBound(press) && press.stateEvents == [] && press.inputEvents == [ActionPressed("pause")]
    requires AxesBound(next) && next.stateEvents == []
    ensures var c1 := Frame(c, press);
            c1.running && Top(c1.stack).GameplayScene? && Top(c1.stack).game.paused
    ensures var c1 := Frame(c, press);
            var c2 := Frame(c1, next);
            c2.running && Top(c2.stack).MainMenuScene? && !c2.world.hideCursor
            && c2.world.live !! GameplayOwned(Top(c1.stack).game)
  {
    assert HandleEvents(c, []) == c;
    var u := UpdateTop(c, press);
    assert u.1 == Trans.None;
    var c3 := RunSystems(u.0, press);
    var batch := c3.world.events[|c.world.events|..];
    assert batch == [ActionPressed("pause")];
    assert GameplayHooks.PauseCount(batch) == 1;
    var c1 := Frame(c, press);
    assert HandleEvents(c1, []) == c1;
    var u2 := UpdateTop(c1, next);
    assert u2.1 == Pop;
    var c2 := Frame(c1, next);
    TopSceneOwnsTheWorld(c2);
  }
}

=== FILE: gameplay_state.dfy ===
/** The hooks of `GameplayState` (src/states/gameplay_state.rs). */
module GameplayHooks {
  import opened Wrappers
  import opened Ecs
  import opened Scenes
  import Graphics

  /** The gameplay camera: at (0, 0, -4), turned half way round the vertical axis. */
  const CameraStart := Transform(Vec3(0.0, 0.0, -4.0), 0.0, Pi, 0.0)

  /** `GameplayState::new`: not paused, no reader, no entity recorded. */
  function New(data: GameplayData): (s: GameplayState)
    ensures s.data == data && !s.paused && s.eventReader == Option.None
    ensures s.suzanne == Option.None && s.light == Option.None && s.camera == Option.None
    ensures GameplayOwned(s) == {}
  {
    GameplayState(data, Option.None, false, Option.None, Option.None, Option.None)
  }

  /** `on_start`: marks the scene as Gameplay, hides the cursor, registers an input
      reader at the end of the channel and creates the model, a light and the camera,
      the entities `w.next` to `w.next + 2`. */
  function OnStart(s: GameplayState, w: World): (r: (GameplayState, World))
    ensures r.1.current == Gameplay && r.1.hideCursor && r.1.events == w.events
    ensures r.0.eventReader == Some(|w.events|)
    ensures r.0.suzanne == Some(w.next) && r.0.light == Some(w.next + 1) && r.0.camera == Some(w.next + 2)
    ensures r.1.next == w.next + 3
    ensures r.1.live == w.live + {w.next, w.next + 1, w.next + 2}
    ensures r.1.cameras == w.cameras + {w.next + 2} && r.1.rotates == w.rotates
    ensures r.1.transforms.Keys == w.transforms.Keys + {w.next, w.next + 1, w.next + 2}
    ensures r.1.transforms == w.transforms[w.next := s.data.transform][w.next + 1 := Graphics.LightTransform]
                                          [w.next + 2 := CameraStart]
    ensures r.0.data == s.data && r.0.paused == s.paused
  {
    var w1 := w.(current := Gameplay, hideCursor := true);
    var reader := RegisterReader(w1);
    var suzanne := w1.next;
    var w2 := Spawn(w1, Components(Some(s.data.transform), false, false));
    var light := w2.next;
    var w3 := Graphics.InitializeLight(w2);
    var camera := w3.next;
    var w4 := Graphics.InitializeCamera(w3, CameraStart);
    (s.(eventReader := Some(reader), suzanne := Some(suzanne), light := Some(light), camera := Some(camera)), w4)
  }

  /** Three slots holding `n` to `n + 2` are set, distinct and above every id in `live`. */
  lemma SlotsFromNext(g: GameplayState, live: set<Entity>, n: nat)
    requires forall e | e in live :: e < n
    requires g.suzanne == Some(n) && g.light == Some(n + 1) && g.camera == Some(n + 2)
    ensures GameplayRecorded(g) && GameplayOwned(g) == {n, n + 1, n + 2}
    ensures GameplayOwned(g) !! live && |GameplayOwned(g)| == 3
  {
    CardinalityOfThree(n, n + 1, n + 2);
  }

  /** The three entities `on_start` records are fresh and distinct, and they are all it adds. */
  lemma OnStartRecordsThreeFresh(s: GameplayState, w: World)
    ensures GameplayRecorded(OnStart(s, w).0)
    ensures GameplayOwned(OnStart(s, w).0) !! w.live
    ensures |GameplayOwned(OnStart(s, w).0)| == 3
    ensures OnStart(s, w).1.live == w.live + GameplayOwned(OnStart(s, w).0)
  {
    var r := OnStart(s, w);
    SlotsFromNext(r.0, w.live, w.next);
  }

  /** The three `delete_entity(..unwrap()).unwrap()` calls of `on_stop` succeed in order. */
  predicate CanStop(s: GameplayState, w: World)
  {
    && s.suzanne.Some? && s.light.Some? && s.camera.Some?
    && s.suzanne.value in w.live
    && s.light.value in w.live - {s.suzanne.value}
    && s.camera.value in w.live - {s.suzanne.value, s.light.value}
  }

  /** `on_stop`: shows the cursor again and deletes exactly the three recorded entities;
      `CurrentState` is left as it is. */
  function OnStop(s: GameplayState, w: World): (r: World)
    requires CanStop(s, w)
    ensures !r.hideCursor && r.current == w.current && r.events == w.events && r.next == w.next
    ensures GameplayOwned(s) <= w.live && r.live == w.live - GameplayOwned(s)
    ensures r.transforms == w.transforms - GameplayOwned(s)
    ensures r.cameras == w.cameras - GameplayOwned(s) && r.rotates == w.rotates - GameplayOwned(s)
  {
    var w1 := w.(hideCursor := false);
    var w2 := Delete(w1, s.suzanne.value);
    var w3 := Delete(w2, s.light.value);
    var w4 := Delete(w3, s.camera.value);
    assert GameplayOwned(s) == {s.suzanne.value, s.light.value, s.camera.value};
    w4
  }

  /** `update`: pop back to the menu once paused. */
  function Update(s: GameplayState): (t: Trans)
    ensures t == Pop <==> s.paused
    ensures t == Pop || t == Trans.None
  {
    if s.paused then Pop else Trans.None
  }

  predicate IsPausePress(e: InputEvent)
  {
    e == ActionPressed("pause")
  }

  /** How many `ActionPressed("pause")` events a batch holds. */
  function PauseCount(batch: seq<InputEvent>): nat
  {
    if |batch| == 0 then 0
    else (if IsPausePress(batch[0]) then 1 else 0) + PauseCount(batch[1..])
  }

  /** The loop of `shadow_update`: flip `paused` at every pause press, in order. */
  function Toggle(paused: bool, batch: seq<InputEvent>): (r: bool)
    ensures r <==> (paused <==> PauseCount(batch) % 2 == 0)
    decreases |batch|
  {
    if |batch| == 0 then paused
    else Toggle(if IsPausePress(batch[0]) then !paused else paused, batch[1..])
  }

  /** `shadow_update`: reads every new input event (the unwrap demands a registered reader)
      and flips `paused` once per pause press. */
  function ShadowUpdate(s: GameplayState, w: World): (r: GameplayState)
    requires s.eventReader.Some? && s.eventReader.value <= |w.events|
    ensures r.eventReader == Some(|w.events|)
    ensures r.paused <==> (s.paused <==> PauseCount(w.events[s.eventReader.value..]) % 2 == 0)
    ensures r == s.(paused := r.paused, eventReader := r.eventReader)
  {
    var (batch, cursor) := Read(w.events, s.eventReader.value);
    s.(paused := Toggle(s.paused, batch), eventReader := Some(cursor))
  }

  /** Toggling over two batches in turn is toggling over their concatenation, so the
      frame boundaries at which events are read do not matter. */
  lemma {:induction false} ToggleConcat(paused: bool, a: seq<InputEvent>, b: seq<InputEvent>)
    ensures Toggle(Toggle(paused, a), b) == Toggle(paused, a + b)
    decreases |a|
  {
    if |a| == 0 {
      assert a + b == b;
    } else {
      assert (a + b)[0] == a[0];
      assert (a + b)[1..] == a[1..] + b;
      ToggleConcat(if IsPausePress(a[0]) then !paused else paused, a[1..], b);
    }
  }

  /** An even number of pause presses leaves `paused` as it was, whatever else the batch holds. */
  lemma EvenPressesKeepPaused(s: GameplayState, w: World)
    requires s.eventReader.Some? && s.eventReader.value <= |w.events|
    requires PauseCount(w.events[s.eventReader.value..]) % 2 == 0
    ensures ShadowUpdate(s, w).paused == s.paused
  {
  }

  /** Events other than pause presses do not affect the outcome. */
  lemma {:induction false} OtherEventsIgnored(paused: bool, batch: seq<InputEvent>, e: InputEvent)
    requires !IsPausePress(e)
    ensures Toggle(paused, [e] + batch) == Toggle(paused, batch)
  {
    assert ([e] + batch)[1..] == batch;
  }
}

=== FILE: graphics.dfy ===
/** The entity constructors of src/graphics.rs; projection and light parameters are not modelled. */
module Graphics {
  import opened Wrappers
  import opened Ecs

  /** The light's transform: at (2, 2, -2), turned half way round the vertical axis. */
  const LightTransform := Transform(Vec3(2.0, 2.0, -2.0), 0.0, Pi, 0.0)

  /** `initialize_light`: one fresh entity, `w.next`, carrying a light and a transform. */
  function InitializeLight(w: World): (r: World)
    ensures w.next !in w.live && r.live == w.live + {w.next} && r.next == w.next + 1
    ensures r.transforms == w.transforms[w.next := LightTransform]
    ensures r.transforms.Keys == w.transforms.Keys + {w.next}
    ensures r.cameras == w.cameras && r.rotates == w.rotates
    ensures r.current == w.current && r.hideCursor == w.hideCursor && r.events == w.events
  {
    Spawn(w, Components(Some(LightTransform), false, false))
  }

  /** `initialize_camera`: one fresh entity, `w.next`, carrying a camera and the given transform. */
  function InitializeCamera(w: World, t: Transform): (r: World)
    ensures w.next !in w.live && r.live == w.live + {w.next} && r.next == w.next + 1
    ensures r.transforms == w.transforms[w.next := t]
    ensures r.transforms.Keys == w.transforms.Keys + {w.next}
    ensures r.cameras == w.cameras + {w.next} && r.rotates == w.rotates
    ensures r.current == w.current && r.hideCursor == w.hideCursor && r.events == w.events
  {
    Spawn(w, Components(Some(t), true, false))
  }
}

=== FILE: loading_state.dfy ===
/** The hooks of `LoadingState` (src/states/loading_state.rs). */
module LoadingHooks {
  import opened Wrappers
  import opened Ecs
  import opened Scenes
  import MainMenuHooks

  /** `LoadingState::new`: nothing loaded, no entity recorded. */
  function New(): (s: LoadingState)
    ensures s.gameplayData == Option.None && s.mainmenuData == Option.None
    ensures s.mainmenuGui == Option.None
    ensures s.loadingGui == Option.None && s.progressBar == Option.None
    ensures LoadingOwned(s) == {}
  {
    LoadingState(Option.None, Option.None, Option.None, Option.None, Option.None)
  }

  /** The three values `update` unwraps when loading completes. */
  predicate DataLoaded(s: LoadingState)
  {
    s.gameplayData.Some? && s.mainmenuData.Some? && s.mainmenuGui.Some?
  }

  /** `on_start`: marks the scene as Loading, starts the loaders (whose results are the
      `assets` oracle) and instantiates exactly one entity, the loading screen `w.next`;
      the menu UI is only loaded as a prefab handle. */
  function OnStart(s: LoadingState, w: World, assets: Assets): (r: (LoadingState, World))
    ensures r.1.current == CurrentState.Loading && r.1.hideCursor == w.hideCursor && r.1.events == w.events
    ensures r.0.loadingGui == Some(w.next) && w.next !in w.live
    ensures r.1.live == w.live + {w.next} && r.1.next == w.next + 1
    ensures r.1.transforms == w.transforms && r.1.cameras == w.cameras && r.1.rotates == w.rotates
    ensures r.0.mainmenuGui == Some(assets.mainmenuGui)
    ensures r.0.gameplayData == Some(assets.gameplayData) && r.0.mainmenuData == Some(assets.mainmenuData)
    ensures DataLoaded(r.0) && r.0.progressBar == s.progressBar
  {
    var w1 := w.(current := CurrentState.Loading);
    var gui := w1.next;
    var w2 := Spawn(w1, Bare);
    (s.(mainmenuGui := Some(assets.mainmenuGui),
        loadingGui := Some(gui),
        gameplayData := Some(assets.gameplayData),
        mainmenuData := Some(assets.mainmenuData)), w2)
  }

  /** `on_stop`: deletes exactly the recorded loading screen; both unwraps demand that it
      was recorded and is alive. */
  function OnStop(s: LoadingState, w: World): (r: World)
    requires s.loadingGui.Some? && s.loadingGui.value in w.live
    ensures LoadingOwned(s) <= w.live && r.live == w.live - LoadingOwned(s)
    ensures r.transforms == w.transforms - LoadingOwned(s)
    ensures r.cameras == w.cameras - LoadingOwned(s) && r.rotates == w.rotates - LoadingOwned(s)
    ensures r.current == w.current && r.hideCursor == w.hideCursor && r.events == w.events && r.next == w.next
  {
    Delete(w, s.loadingGui.value)
  }

  /** What one `update` call leaves behind: the state, the transition, and whether the
      progress bar's widgets were rewritten (their geometry and text are not modelled). */
  datatype Outcome = Outcome(state: LoadingState, trans: Trans, barWritten: bool)

  predicate BarComplete(bar: BarView)
  {
    bar.background && bar.bar && bar.text
  }

  /** `update`: on completion switch to a fresh main menu built from the three loaded
      values (the unwraps demand them), on failure quit, and while loading stay, either
      rewriting the bar once it is known and all its widgets are present, or looking the
      bar up by name. */
  function Update(s: LoadingState, completion: Completion, ui: UiNames, bar: BarView): (r: Outcome)
    requires completion == Completion.Complete ==> DataLoaded(s)
    ensures completion == Completion.Complete ==>
              r.trans == Switch(MainMenuScene(MainMenuHooks.New(
                s.mainmenuGui.value, s.mainmenuData.value, s.gameplayData.value)))
    ensures r.trans == Quit <==> completion == Failed
    ensures r.trans == Trans.None <==> completion == Completion.Loading
    ensures completion != Completion.Loading ==> r.state == s
    ensures r.barWritten <==> completion == Completion.Loading && s.progressBar.Some? && BarComplete(bar)
    ensures s.progressBar.Some? ==> r.state.progressBar == s.progressBar
    ensures completion == Completion.Loading && s.progressBar.None? ==>
              r.state.progressBar == Find(ui, "progress_bar")
    ensures r.state == s.(progressBar := r.state.progressBar)
  {
    match completion
    case Complete =>
      Outcome(s, Switch(MainMenuScene(MainMenuHooks.New(
        s.mainmenuGui.value, s.mainmenuData.value, s.gameplayData.value))), false)
    case Loading =>
      if s.progressBar.Some? then
        Outcome(s, Trans.None, BarComplete(bar))
      else
        Outcome(s.(progressBar := Find(ui, "progress_bar")), Trans.None, false)
    case Failed =>
      Outcome(s, Quit, false)
  }

  /** One frame's oracles while loading is still in progress. */
  datatype Poll = Poll(ui: UiNames, bar: BarView)

  /** A run of `update` calls while the counter reports Loading. */
  function PollMany(s: LoadingState, polls: seq<Poll>): LoadingState
    decreases |polls|
  {
    if |polls| == 0 then s
    else PollMany(Update(s, Completion.Loading, polls[0].ui, polls[0].bar).state, polls[1..])
  }

  /** Once found, the progress bar is never looked up again nor cleared. */
  lemma {:induction false} ProgressBarNeverCleared(s: LoadingState, polls: seq<Poll>)
    requires s.progressBar.Some?
    ensures PollMany(s, polls).progressBar == s.progressBar
    decreases |polls|
  {
    if |polls| > 0 {
      ProgressBarNeverCleared(Update(s, Completion.Loading, polls[0].ui, polls[0].bar).state, polls[1..]);
    }
  }

  /** The bar is known after a run of polls as soon as one poll's finder saw it. */
  lemma {:induction false} ProgressBarFoundStaysFound(s: LoadingState, polls: seq<Poll>, i: nat)
    requires i < |polls| && "progress_bar" in polls[i].ui
    ensures PollMany(s, polls).progressBar.Some?
    decreases |polls|
  {
    var s1 := Update(s, Completion.Loading, polls[0].ui, polls[0].bar).state;
    if i == 0 {
      ProgressBarNeverCleared(s1, polls[1..]);
    } else {
      ProgressBarFoundStaysFound(s1, polls[1..], i - 1);
    }
  }
}

=== FILE: mainmenu_state.dfy ===
/** The hooks of `MainMenuState` (src/states/mainmenu_state.rs). */
module MainMenuHooks {
  import opened Wrappers
  import opened Ecs
  import opened Scenes
  import Graphics
  import GameplayHooks

  /** The menu camera: at (1, 0, -4), turned half way round the vertical axis. */
  const CameraStart := Transform(Vec3(1.0, 0.0, -4.0), 0.0, Pi, 0.0)

  /** `MainMenuState::new`: keeps the loaded data, records no entity and no button. */
  function New(gui: Handle, data: MainMenuData, gameplayData: GameplayData): (s: MainMenuState)
    ensures s.data == data && s.mainmenuGui == gui && s.gameplayData == gameplayData
    ensures s.guiEntity == Option.None && s.suzanne == Option.None
    ensures s.light == Option.None && s.camera == Option.None
    ensures s.play == Option.None && s.settings == Option.None && s.quit == Option.None
    ensures MainMenuOwned(s) == {}
  {
    MainMenuState(data, gui, Option.None, Option.None, Option.None, Option.None,
                  gameplayData, Option.None, Option.None, Option.None)
  }

  /** The first two entities of `enter`: the menu UI, `w.next`, with no joined component,
      and the rotating model, `w.next + 1`, with the loaded transform. */
  function SpawnGuiAndModel(w: World, model: Transform): (r: World)
    ensures w.next !in w.live && w.next + 1 !in w.live
    ensures r.live == w.live + {w.next, w.next + 1} && r.next == w.next + 2
    ensures r.transforms == w.transforms[w.next + 1 := model]
    ensures r.transforms.Keys == w.transforms.Keys + {w.next + 1}
    ensures r.cameras == w.cameras && r.rotates == w.rotates + {w.next + 1}
    ensures r.current == w.current && r.hideCursor == w.hideCursor && r.events == w.events
  {
    Spawn(Spawn(w, Bare), Components(Some(model), false, true))
  }

  /** The last two entities of `enter`: the light, `w.next`, and the camera, `w.next + 1`. */
  function SpawnLightAndCamera(w: World): (r: World)
    ensures w.next !in w.live && w.next + 1 !in w.live
    ensures r.live == w.live + {w.next, w.next + 1} && r.next == w.next + 2
    ensures r.transforms == w.transforms[w.next := Graphics.LightTransform][w.next + 1 := CameraStart]
    ensures r.transforms.Keys == w.transforms.Keys + {w.next, w.next + 1}
    ensures r.cameras == w.cameras + {w.next + 1} && r.rotates == w.rotates
    ensures r.current == w.current && r.hideCursor == w.hideCursor && r.events == w.events
  {
    Graphics.InitializeCamera(Graphics.InitializeLight(w), CameraStart)
  }

  /** `enter`: marks the scene as MainMenu and creates four fresh entities, the menu UI,
      the rotating model, a light and the camera; `HideCursor` is not touched. */
  function Enter(s: MainMenuState, w: World): (r: (MainMenuState, World))
    ensures r.1.current == MainMenu && r.1.hideCursor == w.hideCursor && r.1.events == w.events
    ensures r.0.guiEntity == Some(w.next) && r.0.suzanne == Some(w.next + 1)
    ensures r.0.light == Some(w.next + 2) && r.0.camera == Some(w.next + 3)
    ensures r.1.next == w.next + 4
    ensures r.1.live == w.live + {w.next, w.next + 1, w.next + 2, w.next + 3}
    ensures r.1.cameras == w.cameras + {w.next + 3}
    ensures r.1.rotates == w.rotates + {w.next + 1}
    ensures r.1.transforms.Keys == w.transforms.Keys + {w.next + 1, w.next + 2, w.next + 3}
    ensures r.1.transforms == w.transforms[w.next + 1 := s.data.transform][w.next + 2 := Graphics.LightTransform]
                                          [w.next + 3 := CameraStart]
    ensures r.0 == s.(guiEntity := r.0.guiEntity, suzanne := r.0.suzanne, light := r.0.light, camera := r.0.camera)
  {
    var gui := w.next;
    var suzanne := w.next + 1;
    var w3 := SpawnGuiAndModel(w.(current := MainMenu), s.data.transform);
    var w5 := SpawnLightAndCamera(w3);
    (s.(guiEntity := Some(gui), suzanne := Some(suzanne), light := Some(w3.next), camera := Some(w3.next + 1)), w5)
  }

  /** Four slots holding `n` to `n + 3` are set, distinct and above every id in `live`. */
  lemma SlotsFromNext(m: MainMenuState, live: set<Entity>, n: nat)
    requires forall e | e in live :: e < n
    requires m.guiEntity == Some(n) && m.suzanne == Some(n + 1)
    requires m.light == Some(n + 2) && m.camera == Some(n + 3)
    ensures MainMenuRecorded(m) && MainMenuOwned(m) == {n, n + 1, n + 2, n + 3}
    ensures MainMenuOwned(m) !! live && |MainMenuOwned(m)| == 4
  {
    CardinalityOfFour(n, n + 1, n + 2, n + 3);
  }

  /** The four entities `enter` records are fresh and distinct, and they are all it adds. */
  lemma EnterRecordsFourFresh(s: MainMenuState, w: World)
    ensures var r := Enter(s, w);
            && MainMenuRecorded(r.0) && MainMenuOwned(r.0) !! w.live && |MainMenuOwned(r.0)| == 4
            && r.1.live == w.live + MainMenuOwned(r.0)
  {
    var r := Enter(s, w);
    SlotsFromNext(r.0, w.live, w.next);
  }

  /** `on_start` runs `enter`; so does `on_resume`, which is therefore this same function:
      a menu resumed from gameplay rebuilds its four entities. */
  function OnStart(s: MainMenuState, w: World): (r: (MainMenuState, World))
    ensures r.1.current == MainMenu && r.1.hideCursor == w.hideCursor && r.1.events == w.events
    ensures MainMenuRecorded(r.0) && MainMenuOwned(r.0) !! w.live && |MainMenuOwned(r.0)| == 4
    ensures r.1.live == w.live + MainMenuOwned(r.0)
    ensures r.1.cameras == w.cameras + {r.0.camera.value} && r.1.rotates == w.rotates + {r.0.suzanne.value}
    ensures r.0.guiEntity.value >= w.next && r.0.suzanne.value >= w.next
    ensures r.0.light.value >= w.next && r.0.camera.value >= w.next
    ensures r.0 == s.(guiEntity := r.0.guiEntity, suzanne := r.0.suzanne, light := r.0.light, camera := r.0.camera)
  {
    EnterRecordsFourFresh(s, w);
    Enter(s, w)
  }

  /** The deletions of `on_pause` succeed in order: the UI entity if recorded, then the
      model, the light and the camera, whose slots the unwraps demand to be set. */
  predicate CanPause(s: MainMenuState, w: World)
  {
    && (s.guiEntity.Some? ==> s.guiEntity.value in w.live)
    && s.suzanne.Some? && s.light.Some? && s.camera.Some?
    && s.suzanne.value in w.live - Held(s.guiEntity)
    && s.light.value in w.live - Held(s.guiEntity) - {s.suzanne.value}
    && s.camera.value in w.live - Held(s.guiEntity) - {s.suzanne.value, s.light.value}
  }

  /** `on_pause`: deletes exactly the recorded entities and forgets the buttons without
      deleting them (they belong to the UI entity's hierarchy). The entity slots keep
      their now dead handles. */
  function OnPause(s: MainMenuState, w: World): (r: (MainMenuState, World))
    requires CanPause(s, w)
    ensures MainMenuOwned(s) <= w.live && r.1.live == w.live - MainMenuOwned(s)
    ensures r.1.transforms == w.transforms - MainMenuOwned(s)
    ensures r.1.cameras == w.cameras - MainMenuOwned(s) && r.1.rotates == w.rotates - MainMenuOwned(s)
    ensures r.1.current == w.current && r.1.hideCursor == w.hideCursor && r.1.events == w.events && r.1.next == w.next
    ensures r.0 == s.(play := Option.None, settings := Option.None, quit := Option.None)
  {
    var w1 := if s.guiEntity.Some? then Delete(w, s.guiEntity.value) else w;
    var s1 := s.(play := Option.None, settings := Option.None, quit := Option.None);
    var w2 := Delete(w1, s.suzanne.value);
    var w3 := Delete(w2, s.light.value);
    var w4 := Delete(w3, s.camera.value);
    assert MainMenuOwned(s) == Held(s.guiEntity) + {s.suzanne.value, s.light.value, s.camera.value};
    (s1, w4)
  }

  /** `matches`: a click hits a button only once that button has been discovered. */
  function Matches(target: Entity, entity: Option<Entity>): (r: bool)
    ensures r <==> entity == Some(target)
    ensures entity == Option.None ==> !r
  {
    match entity
    case Some(e) => target == e
    case None => false
  }

  predicate IsClickStop(event: StateEvent)
  {
    event.Ui? && event.ui.eventType == ClickStop
  }

  /** `handle_event`: only a click release on a discovered button transitions: play pushes
      a fresh gameplay scene with the loaded gameplay data, quit quits; settings, other
      targets and every other event stay. */
  function HandleEvent(s: MainMenuState, event: StateEvent): (t: Trans)
    ensures t != Trans.None ==> IsClickStop(event)
    ensures t.Push? || t == Quit || t == Trans.None
    ensures t.Push? <==> IsClickStop(event) && Matches(event.ui.target, s.play)
    ensures t.Push? ==> t.pushed == GameplayScene(GameplayHooks.New(s.gameplayData))
    ensures t == Quit <==>
              && IsClickStop(event)
              && !Matches(event.ui.target, s.play)
              && !Matches(event.ui.target, s.settings)
              && Matches(event.ui.target, s.quit)
  {
    match event
    case Ui(uiEvent) =>
      if uiEvent.eventType == ClickStop then
        if Matches(uiEvent.target, s.play) then
          Push(GameplayScene(GameplayHooks.New(s.gameplayData)))
        else if Matches(uiEvent.target, s.settings) then
          Trans.None
        else if Matches(uiEvent.target, s.quit) then
          Quit
        else
          Trans.None
      else
        Trans.None
    case _ => Trans.None
  }

  /** A click before any button has been found never transitions. */
  lemma NoTransitionBeforeDiscovery(s: MainMenuState, event: StateEvent)
    requires s.play == Option.None && s.quit == Option.None
    ensures HandleEvent(s, event) == Trans.None
  {
  }

  /** `update`: looks up each button by name while its slot is empty, and never transitions. */
  function Update(s: MainMenuState, ui: UiNames): (r: (MainMenuState, Trans))
    ensures r.1 == Trans.None
    ensures s.play.Some? ==> r.0.play == s.play
    ensures s.play.None? ==> r.0.play == Find(ui, "play")
    ensures s.settings.Some? ==> r.0.settings == s.settings
    ensures s.settings.None? ==> r.0.settings == Find(ui, "settings")
    ensures s.quit.Some? ==> r.0.quit == s.quit
    ensures s.quit.None? ==> r.0.quit == Find(ui, "quit")
    ensures r.0 == s.(play := r.0.play, settings := r.0.settings, quit := r.0.quit)
  {
    var s1 := if s.play.None? then s.(play := Find(ui, "play")) else s;
    var s2 := if s1.settings.None? then s1.(settings := Find(ui, "settings")) else s1;
    var s3 := if s2.quit.None? then s2.(quit := Find(ui, "quit")) else s2;
    (s3, Trans.None)
  }

  /** A run of `update` calls, one finder per frame. */
  function UpdateMany(s: MainMenuState, uis: seq<UiNames>): MainMenuState
    decreases |uis|
  {
    if |uis| == 0 then s else UpdateMany(Update(s, uis[0]).0, uis[1..])
  }

  /** Once discovered, the play button is kept over any number of frames, and the rest of
      the menu beside the buttons never changes. */
  lemma {:induction false} PlayButtonNeverForgotten(s: MainMenuState, uis: seq<UiNames>)
    requires s.play.Some?
    ensures UpdateMany(s, uis).play == s.play
    ensures UpdateMany(s, uis) == s.(play := s.play, settings := UpdateMany(s, uis).settings,
                                     quit := UpdateMany(s, uis).quit)
    decreases |uis|
  {
    if |uis| > 0 {
      PlayButtonNeverForgotten(Update(s, uis[0]).0, uis[1..]);
    }
  }

  /** The play button is known after a run of frames as soon as one frame's finder saw it. */
  lemma {:induction false} PlayButtonFoundStaysFound(s: MainMenuState, uis: seq<UiNames>, i: nat)
    requires i < |uis| && "play" in uis[i]
    ensures UpdateMany(s, uis).play.Some?
    decreases |uis|
  {
    var s1 := Update(s, uis[0]).0;
    if i == 0 {
      assert s1.play.Some?;
      PlayButtonNeverForgotten(s1, uis[1..]);
    } else {
      PlayButtonFoundStaysFound(s1, uis[1..], i - 1);
    }
  }
}

=== FILE: scenes.dfy ===
/**
 * The records the three scene states keep, the engine's `Trans` and
 * `StateEvent`, and the foreign oracles the hooks consult (asset loaders,
 * the progress counter's completion, the UI finder).
 */
module Scenes {
  import opened Wrappers
  import opened Ecs

  /** A reference-counted asset handle (mesh, texture, UI prefab); what it points to is not modelled. */
  datatype Handle = Handle(id: nat)

  /** Material, mesh and start transform of the gameplay model. */
  datatype GameplayData = GameplayData(mtl: Handle, mesh: Handle, transform: Transform)

  /** Material, mesh and start transform of the rotating main-menu model. */
  datatype MainMenuData = MainMenuData(mtl: Handle, mesh: Handle, transform: Transform)

  /** What the asset loaders hand back when the loading screen starts them. */
  datatype Assets = Assets(mainmenuGui: Handle, gameplayData: GameplayData, mainmenuData: MainMenuData)

  /** `ProgressCounter::complete()`, an input oracle. */
  datatype Completion = Loading | Complete | Failed

  /** The UI elements `UiFinder::find` can see this frame, by name. */
  type UiNames = map<string, Entity>

  function Find(ui: UiNames, name: string): Option<Entity>
  {
    if name in ui then Some(ui[name]) else Option.None
  }

  /** Which of the progress bar's widgets the world holds this frame: the background's
      `UiTransform`, child 0's `UiTransform` and child 1's `UiText`. */
  datatype BarView = BarView(background: bool, bar: bool, text: bool)

  datatype LoadingState = LoadingState(
    gameplayData: Option<GameplayData>,
    mainmenuData: Option<MainMenuData>,
    mainmenuGui: Option<Handle>,
    loadingGui: Option<Entity>,
    progressBar: Option<Entity>)

  datatype MainMenuState = MainMenuState(
    data: MainMenuData,
    mainmenuGui: Handle,
    guiEntity: Option<Entity>,
    suzanne: Option<Entity>,
    light: Option<Entity>,
    camera: Option<Entity>,
    gameplayData: GameplayData,
    play: Option<Entity>,
    settings: Option<Entity>,
    quit: Option<Entity>)

  /** `eventReader` is the reader's cursor into the input channel. */
  datatype GameplayState = GameplayState(
    data: GameplayData,
    eventReader: Option<nat>,
    paused: bool,
    suzanne: Option<Entity>,
    light: Option<Entity>,
    camera: Option<Entity>)

  datatype Scene =
    | LoadingScene(loading: LoadingState)
    | MainMenuScene(menu: MainMenuState)
    | GameplayScene(game: GameplayState)

  /** The transition a hook asks the engine for. */
  datatype Trans = None | Pop | Push(pushed: Scene) | Switch(target: Scene) | Quit

  datatype UiEventType =
    | Click | ClickStart | ClickStop | HoverStart | HoverStop
    | Dragged | Dropped | ValueChange | ValueCommit | Focus | Blur

  datatype UiEvent = UiEvent(eventType: UiEventType, target: Entity)

  /** Events handed to `handle_event`; of a window event only whether it asks to close
      the window matters. */
  datatype StateEvent = Window(closeRequested: bool) | Ui(ui: UiEvent)

  /** The entities a scene created itself and must delete again (the ledger). */
  function LoadingOwned(s: LoadingState): set<Entity>
  {
    Held(s.loadingGui)
  }

  function MainMenuOwned(s: MainMenuState): set<Entity>
  {
    Held(s.guiEntity) + Held(s.suzanne) + Held(s.light) + Held(s.camera)
  }

  function GameplayOwned(s: GameplayState): set<Entity>
  {
    Held(s.suzanne) + Held(s.light) + Held(s.camera)
  }

  function Owned(scene: Scene): set<Entity>
  {
    match scene
    case LoadingScene(l) => LoadingOwned(l)
    case MainMenuScene(m) => MainMenuOwned(m)
    case GameplayScene(g) => GameplayOwned(g)
  }

  /** All four menu slots are set, to four different entities. */
  predicate MainMenuRecorded(s: MainMenuState)
  {
    && s.guiEntity.Some? && s.suzanne.Some? && s.light.Some? && s.camera.Some?
    && s.guiEntity.value != s.suzanne.value && s.guiEntity.value != s.light.value
    && s.guiEntity.value != s.camera.value && s.suzanne.value != s.light.value
    && s.suzanne.value != s.camera.value && s.light.value != s.camera.value
  }

  /** All three gameplay slots are set, to three different entities. */
  predicate GameplayRecorded(s: GameplayState)
  {
    && s.suzanne.Some? && s.light.Some? && s.camera.Some?
    && s.suzanne.value != s.light.value && s.suzanne.value != s.camera.value
    && s.light.value != s.camera.value
  }

  /** The `CurrentState` value a scene writes when it is entered. */
  function Marker(scene: Scene): CurrentState
  {
    match scene
    case LoadingScene(_) => CurrentState.Loading
    case MainMenuScene(_) => MainMenu
    case GameplayScene(_) => Gameplay
  }
}

=== FILE: wrappers.dfy ===
/** Rust's `Option`, as the state records use it for entity slots and loaded data. */
module Wrappers {

  datatype Option<+T> = None | Some(value: T)
}
